=== FILE: README.md ===
# pricesdropbot decision core, in Dafny

pricesdropbot watches product pages of an online shop and acts when a price
drops. Each product has its own monitor thread. Every cycle the thread reads
the featured offer and then the list of other offers. It classifies each
offer by price and condition and logs the verdict, but only when the price
changed since the previous cycle. An offer at or under the product's cut price
triggers a message, and then either an add-to-cart click or, with
autocheckout on, a logged purchase. A chat bot starts and stops these
monitors. It reconciles them with the product file on `/reload` and removes
products on `/delete`.

This project models the pure decisions of that program and proves their
properties:

- `Text`: the Python string operations the program relies on: `strip`,
  `split`/`join` whitespace collapsing, ASCII `lower`, and substring `in`.
- `Conditions`: the condition-heading normaliser, which maps to the first
  state (in table order) with a keyword found in the cleaned heading. It also
  holds the used/new rule of the featured offer.
- `Prices`: `float()` and `int()` over the digit grammar the page produces,
  and the price reading "strip the group separators from the whole part, then
  append `.` and the fraction part".
- `Locate`: trying a list of XPath locators in order, and the item-count
  fallback built on it.
- `Scrape`: what one page visit yields for the featured offer and for each
  other offer. The browser is replaced by a `Page` value.
- `Engine`: one cycle of the monitor loop. It covers the featured-offer step,
  the walk over the other offers with its positional change gate, the
  memory carried to the next cycle, and the stop checks.
- `EngineFacts`: properties of a cycle. They cover the gates, the
  justification of every action, what is recorded, and quiet repetitions.
- `Registry`: starting and stopping monitors, the `/reload` reconciliation,
  the `/delete` command, the autocheckout answer, and the settings a monitor
  takes from its product.

Prices are exact reals. The program's `-1.0` "no price" value (`NoPrice`)
and the `0.0` initial previous price are kept as they are.

## Model

| member | source | states |
|---|---|---|
| Text.StripDropsSpace | main.py:743 | `strip()` returns a contiguous slice of its input that starts and ends with a non-space, and only whitespace was cut on either side |
| Text.Collapse | main.py:749 | joining the split words with single spaces keeps the same words and leaves no leading, trailing or doubled space |
| Text.CollapseIdempotent | main.py:749 | cleaning an already cleaned heading changes nothing |
| Text.StripKeepsKeyword | main.py:543-550 | a keyword without whitespace occurs in the lower-cased stripped text exactly when it occurs in the lower-cased text |
| Conditions.Normalize | main.py:748-766 | the state is "unknown" exactly when no table entry has a keyword in the lower-cased, whitespace-collapsed heading |
| Conditions.NormalizeIsFirstMatch | main.py:748-766 | the normalised state is the first state, in table order, with a keyword contained in the cleaned heading, and "unknown" exactly when no keyword matches |
| Conditions.NeverLikeNew | main.py:751-766 | "used-likenew" is never produced: both of its keywords contain "nuovo" or "new", which the earlier "new" state always matches |
| Conditions.SpecificBeforeGeneric | main.py:751-766 | a heading containing a "very good", "good" or "acceptable" phrase is never normalised to the generic "used" |
| Conditions.SpecificPhraseWins | main.py:751-766 | a used-grade phrase decides the state when neither the "new" keywords nor an earlier grade's phrases occur |
| Conditions.NormalizeIgnoresSpacing | main.py:749 | collapsing the whitespace of a heading beforehand does not change its state |
| Conditions.MainState | main.py:547-550 | the featured offer is "used" when the lower-cased condition contains "usato" or "used", otherwise "new" |
| Conditions.MainStateOfStripped | main.py:543-550 | the featured offer is used exactly when its unstripped "used" text mentions "usato" or "used" in any letter case: stripping cannot lose a keyword |
| Prices.ParseFloat | main.py:535-537 | text that `float()` accepts contains a digit; blank text, a bare sign or a bare point has no price |
| Prices.PriceOf | main.py:532-537 | without a fraction element the price can only be a whole number, since the separators were removed |
| Prices.PriceRoundTrip | main.py:768-773 | any whole number shown with dot grouping, with a two-digit fraction, reads back as exactly the whole number plus the cents |
| Prices.WholePriceRoundTrip | main.py:537 | with no fraction element, the grouped whole digits read back as that whole number |
| Prices.ItalianPriceExample | main.py:532-535 | "1.234" with fraction "56" reads as 1234.56 |
| Prices.ParseIntRoundTrip | main.py:482 | `int()` reads back the decimal rendering of any integer |
| Prices.ParseInt | main.py:482-485 | text that `int()` accepts contains a digit |
| Locate.FindFirst | main.py:562-569 | the result is the element of the first locator that resolves, with that locator; "not found" exactly when every locator misses |
| Locate.FirstHitIsUnique | main.py:562-569 | any hit preceded only by misses is the one returned |
| Locate.SkipsMisses | main.py:563-568 | dropping locators that miss from the front changes nothing but the position |
| Locate.ItemCount | main.py:453 | the count is the default 1 or an integer some locator's text parses to, and 1 when none parses |
| Locate.ItemCountIsFirstParse | main.py:479-485 | the first locator whose element exists and parses as an integer decides the count |
| Scrape.ScrapeMain | main.py:507-554 | an unavailable page, or one where no locator finds the featured block, gives price -1.0, condition "N/A", state unknown and no container; a found block is kept as the container, and its price is read from its fragments when they parse, with a new or used state, or otherwise stays -1.0 with condition "N/A" and state unknown |
| Scrape.ScrapeMainShownPrice | main.py:517-550 | a first located featured block whose price shows `w` grouped with dots and cents `c` reads as exactly w + c/100, in that block; the offer is used exactly when a "used" element mentions "usato" or "used", otherwise new |
| Scrape.MainDefaultsToNew | main.py:539-550 | a priced featured offer without a "used" element is "New"/new |
| Scrape.ReadOffer | main.py:741-773 | an offer has no reading exactly when it has no condition heading, and a price exactly when it also has price fragments that parse, that price being the one read; a headed offer's state is that of its stripped heading |
| Scrape.ReadOfferShownPrice | main.py:741-773 | a headed offer whose price shows `w` grouped with dots and cents `c` reads as exactly w + c/100, in the state of its stripped heading |
| Scrape.ReadOfferNeverLikeNew | main.py:741-766 | no other offer is ever read as "used-likenew" |
| Engine.ClassifyMain | main.py:681-717 | featured offer: unavailable exactly at -1.0; otherwise filtered out when the state is not wanted; otherwise accepted exactly at or under the cut price |
| Engine.ClassifyOffer | main.py:782-813 | other offer: unreadable exactly below 0; otherwise filtered out when the state is not wanted; otherwise accepted exactly at or under the cut price |
| Engine.ClassificationsAgree | main.py:681 | the two rules agree on non-negative prices and never accept -1.0; a wanted negative price other than -1.0 under the cut is accepted on the featured offer but unreadable on an other offer |
| Engine.ProcessMain | main.py:679-720 | the cycle is abandoned exactly when an accepted featured offer is to be carted and its button fails; every log line of the step is about the featured offer |
| Engine.VisitOffer | main.py:736-816 | a priced offer's log line, with its classification, is written exactly when its position of the previous list is absent or different; an accepted offer is notified with its price, then bought under autocheckout, otherwise carted exactly when its button works, a failed click being reported; the message comes second to last and the purchase, cart addition or failure last, after the log line; the walk stops exactly when the offer is bought or carted; exactly the priced offers record their price; an offer without heading gives only the missing-heading line, and a headed offer without a readable price only the failure report, so neither is classified, notified, carted or bought |
| Engine.ScanOffers | main.py:735-817 | the walk records at most one price per offer and never reports the offer count |
| EngineFacts.MainLogIsGated | main.py:679-699 | the featured log line is written exactly when the price differs from the previous one, and it carries the classification |
| EngineFacts.MainNotifiesIffAccepted | main.py:697-703 | the featured price-drop message goes out exactly when the offer is accepted, regardless of the gate, with the current price, and then exactly once |
| EngineFacts.MainTakesAccepted | main.py:704-713 | an accepted featured offer is bought under autocheckout, otherwise added to the cart exactly when its button works; the cycle is abandoned exactly when that click fails; the message is the step's second-to-last event and the purchase, cart addition or failure its last |
| EngineFacts.ScanRecordsParsedPrices | main.py:735-817 | the list kept for the next cycle is the prices of the readable offers up to and including the first one taken |
| EngineFacts.WalkStops | main.py:792-810 | every walk has a stopping point: after the first offer taken, or at the end |
| EngineFacts.VisitLogsAreGated | main.py:777-794 | an offer's log line names its position and is written only when that position of the previous list is absent or different |
| EngineFacts.ScanLogsOnlyOthers | main.py:777 | every log line of the walk is about an other offer in range, at a changed position |
| EngineFacts.ScanActsOnlyOnOthers | main.py:782-810 | every message, cart addition and purchase of the walk names a readable, accepted offer at its position |
| EngineFacts.ScanIncludesVisit | main.py:735-817 | every offer not preceded by one the walk takes contributes all of its events to the walk |
| EngineFacts.ScanLogsEveryChange | main.py:775-794 | every readable offer the walk reaches is logged with its classification exactly when its position of the previous list is absent or different |
| EngineFacts.ScanTakesReachedAccepted | main.py:792-807 | every accepted offer the walk reaches is notified with its price exactly once, then bought under autocheckout, otherwise carted exactly when its button works, never twice |
| EngineFacts.ScanEndsAtStop | main.py:792-810 | every event of the walk concerns an offer up to the first one taken; the offers after it are not looked at |
| EngineFacts.NeverActsOnRejectedOffers | main.py:782-790 | an other offer with a negative price or an unwanted state is never notified, carted or bought |
| EngineFacts.ReadableScanAligns | main.py:775-777 | with every offer readable, the recorded list holds each reached offer's price at its own page position |
| EngineFacts.MatchingScanIsQuiet | main.py:777 | a walk whose previous list matches every reached price at its position logs nothing |
| EngineFacts.RescanIsQuiet | main.py:777-817 | with every offer readable, walking the same offers again logs nothing |
| EngineFacts.SkippedOfferMisalignsGate | main.py:741-777 | an offer without heading shifts the recorded list, so the same page logs the next offer again on the following cycle |
| EngineFacts.PageRemembersMainPrice | main.py:720 | a completed featured step stores its price as the previous one; an abandoned cycle changes no memory |
| EngineFacts.OnlyMainStepLogsMain | main.py:725-816 | no step after the featured one logs about the featured offer |
| EngineFacts.MainActsOnce | main.py:679-713 | the featured step has no repeated event, and it messages, carts or buys only an accepted featured offer |
| EngineFacts.ScanNeverRepeats | main.py:735-817 | no event of the walk over the other offers happens twice |
| EngineFacts.ScanSkipsUnreadable | main.py:741-773 | an offer without a heading or a readable price is never classified, notified, carted or bought by the walk |
| EngineFacts.OnlyMainStepActsOnMain | main.py:679-817 | every log line, message, cart addition or purchase of a page about the featured offer comes from the featured step, as many times |
| EngineFacts.PageNeverRepeats | main.py:679-823 | no event of a page happens twice |
| EngineFacts.RepeatedPageIsQuiet | main.py:679-720 | processing the same page twice logs nothing about the featured offer the second time |
| EngineFacts.NoPriceTakesNothing | main.py:681-690 | a featured reading of -1.0 never leads to a message, a cart addition or a purchase of the featured offer |
| EngineFacts.PageRecordsOffers | main.py:725-733 | "n other offers found" is reported exactly when the count differs from the previous list's length; with no offers the previous list is kept, otherwise replaced by what the walk recorded |
| EngineFacts.PageHonoursStop | main.py:719-823 | a stop seen after the featured step ends the monitor with that step's effects alone; one seen after a non-empty walk ends it; with no stop it goes on; where the stop is seen changes nothing else |
| EngineFacts.FirstPageLogsMain | main.py:635-699 | a fresh monitor logs its featured offer on the first cycle exactly when the price read is not the initial 0.0 |
| Engine.ProcessPage | main.py:679-823 | the monitor stops exactly when the featured step completed and the flag is seen after it, or after a non-empty walk |
| Engine.Cycle | main.py:664-828 | a stop at the top of the loop does nothing and ends the monitor; with no stop the monitor goes on; a failed page load changes no memory |
| EngineFacts.EarlyStopDoesNothing | main.py:664-671 | a stop seen at the top of the loop or after reading the page ends the monitor with no effect |
| EngineFacts.FailedLoadChangesNothing | main.py:822-828 | a cycle whose page fails reports it, changes nothing and loops again |
| EngineFacts.RepeatedCycleIsQuiet | main.py:664-720 | when a cycle got through the featured step (its cart click, if any, did not fail), repeating it on the same page logs nothing about the featured offer |
| EngineFacts.UnavailablePageTakesNothing | main.py:507-512 | an unavailable page never leads to acting on the featured offer |
| EngineFacts.UnreadFeaturedPriceTakesNothing | main.py:529-554 | a page where no locator finds the featured block, or whose block shows no readable price, keeps the -1.0 default and never leads to messaging, carting or buying the featured offer |
| EngineFacts.UnpricedOfferRecordsNothing | main.py:768-815 | a headed offer whose price cannot be read only reports the failure: no classification, message, cart addition or purchase, no price recorded for the next cycle, and the walk goes on |
| EngineFacts.CycleActsOnMainAsMainStep | main.py:664-828 | everything a cycle does about the featured offer is what the featured step on its page does, as many times; a cycle that does not reach that step does nothing about it |
| EngineFacts.CycleTakesMainOnlyWhenAccepted | main.py:664-828 | a cycle messages, carts or buys the featured offer only when it is read as accepted, and no event of a cycle happens twice |
| Registry.Start | main.py:855-870 | starting under a running ASIN does nothing; otherwise a monitor with the given data on a new thread is added and nothing else changes |
| Registry.Stop | main.py:872-881 | stopping removes exactly the given ASIN, if present, and keeps every other monitor |
| Registry.StopUndoesStart | main.py:855-881 | stopping what was just started restores the running set |
| Registry.StartUndoesStop | main.py:855-881 | starting again what was just stopped brings back the same data on a new thread |
| Registry.StartStopKeepValid | main.py:855-881 | starting and stopping keep every monitor under its own ASIN |
| Registry.ByAsin | main.py:275 | every product of the map sits under its own ASIN |
| Registry.ByAsinKeys | main.py:275-276 | the reloaded ASINs are exactly the listed ones |
| Registry.ByAsinIsLastListing | main.py:275 | of several products listing the same ASIN, the last one wins |
| Registry.Reload | main.py:267-313 | an unreadable file changes nothing; otherwise the keys become the listed ASINs, each bound to its listed data; unchanged monitors keep running untouched; every other monitor is on a new thread; the three counts are the sizes of the removed, added and changed sets |
| Registry.ReloadIsIdempotent | main.py:275-308 | a second reload of the same products changes nothing and counts nothing |
| Registry.ReconciledIsValid | main.py:275-308 | reconciling keeps every monitor under its own ASIN |
| Registry.ConfigOf | main.py:626-634 | autocheckout defaults to off, and the state filter is the listed states lower-cased, or empty when none are listed |
| Registry.WantedByProduct | main.py:634 | a state passes a monitor's filter exactly when the product lists no states, or lists one whose lower-cased form is the state's name |
| Registry.ParseYes | main.py:59-60 | autocheckout is on exactly for the answer "yes" in any letter case: three letters y, e, s, each in either case |
| Registry.FirstListing | main.py:113-117 | the first table whose ASIN entry matches, and none exactly when no table matches |
| Registry.Delete | main.py:96-125 | with no argument only the usage is replied; otherwise the monitor is stopped, the reply names the given ASIN, and the first matching table is removed exactly when it exists and its name is non-empty, the file being unchanged otherwise |
| Registry.DeleteRemovesOnlyThatProduct | main.py:113-122 | a successful deletion removes that product's name from the file, keeps every other table, and stops its monitor |

Notes on the behaviour modelled, where the program does something a reader
might not expect.

- There is no stored price history. The only memory is the previous featured
  price and the previous list of other-offer prices.
- An accepted offer is added to the cart only when autocheckout is off. With
  autocheckout on, the program only logs a purchase. The monitor never stops
  itself after a purchase.
- The featured offer is "unavailable" only at exactly -1.0, while other
  offers are "unreadable" at any negative price.
- A failed featured cart click escapes to the loop's error handler. The
  previous featured price is then not updated and the other offers are not
  visited. A failed cart click on an other offer is caught for that offer
  alone, so the walk goes on.
- The other-offer gate compares position `i` of the page with position `i`
  of the recorded list. That list omits offers without a heading or a
  readable price, so the positions can drift (`SkippedOfferMisalignsGate`).
- The "used-likenew" state can never be produced (`NeverLikeNew`).
- The item count is whatever integer `int()` reads, zero and negative
  included.
- A product table with an empty name is never deleted, because the search
  result is used as a truth value.
- Only the featured offer is protected by the "unavailable" notice
  (`UnavailablePageTakesNothing`). The other offers of such a page are still
  walked, so one of them can be messaged, added to the cart or bought.

## Left out

- Browser automation: page loading, waits, clicks, captcha handling and element lookups. The page is an input value (`Page`, `MainBlock`, `OfferBlock`), and a button that can be clicked is a boolean.
- Chat bot handlers, notifications, file reads and writes, cookies and the login flow. These are I/O; the product file arrives as `Option<seq<ProductData>>` or `seq<Listing>`, and messages are `Event`s or `Reply`s.
- The add-product conversation other than its yes/no answer. Its other steps only store text and call `float()`.
- The price lookup assistant, shortlink generation and the debug HTML dump. These are external services and file writes.
- The product name and image URL. They only feed messages.
- Threads, the stop event, joins, sleeps and random jitter. Stopping is the `StopPoint` at which the flag is first seen. A thread is a handle number.
- Floating point. Prices are exact reals, so rounding and `:.2f` formatting are not modelled.
- Prices.ParseFloat: accepts only an optional sign, ASCII digits and an optional dot with digits, surrounded by whitespace. Exponents, `inf`, `nan`, digit underscores and non-ASCII decimal digits (Unicode category Nd), which `float()` also accepts, are treated as rejected, since the page shows none of them.
- Prices.ParseInt: accepts only an optional sign and digits surrounded by whitespace. Digit underscores and non-ASCII digits are not modelled.
- Text.Lower: lowers ASCII letters only and leaves every other character unchanged, including those Python lowers to ASCII letters (U+212A KELVIN SIGN becomes 'k' in Python); a heading written with such a character can miss a keyword here that the program would find.
- Registry.ProductData: holds the keys the monitor reads (name, asin, cut_price, autocheckout, object_state). Any other key of a product table would also make two products differ on reload.
- The dead branch for a featured price of `None`, and the unused `check` flag.
- A product table without `asin` or `cut_price`: the program raises a KeyError, which aborts a reload midway or the start of a monitor. The model's product data always carries both.
- Registry.ConfigOf: `autocheckout` is used by its truth value in the program, so any truthy value turns it on; the model holds it as an optional boolean.
- Registry.ConfigOf: an `object_state` given as a single string instead of a list is split by the program into its characters, each lower-cased; the model takes the states as a list of strings.

=== FILE: conditions.dfy ===
/** Offer conditions: the canonical states, the ordered keyword table used for
    secondary offers, and the simpler used/new rule used for the main offer. */
module Conditions {
  import opened Options
  import opened Text

  datatype Condition = New | UsedLikeNew | UsedVeryGood | UsedGood | UsedAcceptable | Used | Unknown {

    /** The state's name, as it is compared against a product's state filter. */
    function Name(): string {
      match this
      case New => "new"
      case UsedLikeNew => "used-likenew"
      case UsedVeryGood => "used-very good"
      case UsedGood => "used-good"
      case UsedAcceptable => "used-acceptable"
      case Used => "used"
      case Unknown => "unknown"
    }
  }

  /** One row of the condition table: a state and the phrases that signal it. */
  datatype Entry = Entry(state: Condition, keywords: seq<string>)

  /** The condition table, in scan order (Italian and English phrases). */
  const Table: seq<Entry> := [
    Entry(New, ["nuovo", "new"]),
    Entry(UsedLikeNew, ["usato - come nuovo", "used - like new"]),
    Entry(UsedVeryGood, ["usato - ottime condizioni", "used - very good"]),
    Entry(UsedGood, ["usato - buone condizioni", "used - good"]),
    Entry(UsedAcceptable, ["usato - condizioni accettabili", "used - acceptable"]),
    Entry(Used, ["usato", "used"])
  ]

  /** Some keyword of `e` occurs in `s`. */
  predicate Hits(e: Entry, s: string) {
    exists k | k in e.keywords :: Contains(s, k)
  }

  /** Entry `i` is the first entry of `table` at or after `from` that hits `s`. */
  predicate FirstHit(table: seq<Entry>, s: string, from: int, i: int) {
    && 0 <= from <= i < |table|
    && Hits(table[i], s)
    && forall j | from <= j < i :: !Hits(table[j], s)
  }

  /** The inner keyword loop: scans `keywords` in order and stops at the first
      one that occurs in `s`. */
  function AnyKeyword(keywords: seq<string>, s: string): (r: bool)
    ensures r <==> exists k | k in keywords :: Contains(s, k)
  {
    if keywords == [] then false
    else Contains(s, keywords[0]) || AnyKeyword(keywords[1..], s)
  }

  /** The outer table loop from entry `from` on: the index of the first entry
      that hits `s`, or `None` when no remaining entry does. */
  function ScanFrom(table: seq<Entry>, s: string, from: nat): (r: Option<nat>)
    requires from <= |table|
    ensures r.Some? ==> FirstHit(table, s, from, r.value)
    ensures r.None? <==> forall i | from <= i < |table| :: !Hits(table[i], s)
    decreases |table| - from
  {
    if from == |table| then None
    else if AnyKeyword(table[from].keywords, s) then Some(from)
    else ScanFrom(table, s, from + 1)
  }

  /** The text the table is matched against: whitespace runs collapsed to one
      space, then lower-cased. */
  function Clean(text: string): string {
    Lower(Collapse(text))
  }

  /** The secondary-offer normaliser: the state of the first table entry with
      a keyword in the cleaned text, or `Unknown`. */
  function Normalize(text: string): (r: Condition)
    ensures r == Unknown <==> forall i | 0 <= i < |Table| :: !Hits(Table[i], Clean(text))
  {
    match ScanFrom(Table, Clean(text), 0)
    case Some(i) => Table[i].state
    case None => Unknown
  }

  /** `Normalize` is the first-match rule over the table, in table order: it
      is `Unknown` exactly when no entry has a keyword in the cleaned text, and
      otherwise the state of the earliest entry that has one. */
  lemma NormalizeIsFirstMatch(text: string)
    ensures Normalize(text) == Unknown <==> forall i | 0 <= i < |Table| :: !Hits(Table[i], Clean(text))
    ensures Normalize(text) != Unknown ==>
      exists i :: FirstHit(Table, Clean(text), 0, i) && Table[i].state == Normalize(text)
  {
    var r := ScanFrom(Table, Clean(text), 0);
    if r.Some? {
      assert Table[r.value].state != Unknown;
    }
  }

  /** Both like-new phrases contain a "new" keyword ("nuovo", "new"), so any
      text that hits the like-new entry already hits the earlier new entry. */
  lemma LikeNewHitsNew(s: string)
    requires Hits(Table[1], s)
    ensures Hits(Table[0], s)
  {
    var k :| k in Table[1].keywords && Contains(s, k);
    if k == "usato - come nuovo" {
      assert MatchesAt(k, "nuovo", 13);
      ContainsTransitive(s, k, "nuovo");
    } else {
      assert MatchesAt(k, "new", 12);
      ContainsTransitive(s, k, "new");
    }
  }

  /** Because the new entry is scanned first and both like-new phrases
      contain "nuovo" or "new", the like-new state is never produced. */
  lemma NeverLikeNew(text: string)
    ensures Normalize(text) != UsedLikeNew
  {
    var s := Clean(text);
    if ScanFrom(Table, s, 0) == Some(1) {
      LikeNewHitsNew(s);
      assert false;
    }
  }

  /** The used-subtype phrases sit before the generic "used" entry: a text
      containing any of them is never normalised to the generic `Used`. */
  lemma SpecificBeforeGeneric(text: string, i: int, k: string)
    requires 2 <= i <= 4 && k in Table[i].keywords
    requires Contains(Clean(text), k)
    ensures Normalize(text) != Used
  {
    var s := Clean(text);
    assert Hits(Table[i], s);
    if ScanFrom(Table, s, 0) == Some(5) {
      assert false;
    }
  }

  /** A used-subtype phrase wins whenever neither the new entry nor an
      earlier used-subtype entry is hit. */
  lemma SpecificPhraseWins(text: string, i: int)
    requires 2 <= i <= 4
    requires Hits(Table[i], Clean(text))
    requires forall j | 0 <= j < i && j != 1 :: !Hits(Table[j], Clean(text))
    ensures Normalize(text) == Table[i].state
  {
    var s := Clean(text);
    if Hits(Table[1], s) {
      LikeNewHitsNew(s);
    }
    assert FirstHit(Table, s, 0, i);
  }

  /** Whitespace layout does not matter: normalising an already collapsed
      text gives the same state. */
  lemma NormalizeIgnoresSpacing(text: string)
    ensures Normalize(Collapse(text)) == Normalize(text)
  {
    CollapseIdempotent(text);
  }

  /** The main offer's rule: `Used` when the lower-cased condition text
      mentions "usato" or "used", `New` otherwise. */
  function MainState(conditionText: string): (r: Condition)
    ensures r == New || r == Used
  {
    var c := Lower(conditionText);
    if Contains(c, "usato") || Contains(c, "used") then Used else New
  }

  /** Stripping the condition text first does not change the used/new rule:
      the keywords hold no whitespace. */
  lemma MainStateOfStripped(t: string)
    ensures MainState(Strip(t)) == Used <==> Contains(Lower(t), "usato") || Contains(Lower(t), "used")
  {
    StripKeepsKeyword(t, "usato");
    StripKeepsKeyword(t, "used");
  }
}

=== FILE: engine.dfy ===
/** One monitoring cycle of a product: classify the featured offer, then walk
    the other offers, deciding what to log, notify and buy. The only memory
    between cycles is the previous featured price and the previous list of
    other-offer prices, which gate the classification log lines. */
module Engine {
  import opened Options
  import opened Conditions
  import opened Scrape

  /** What a monitor knows about its product: the price at or under which an
      offer is taken, whether taking it means buying (autocheckout) or adding
      to the cart, and the lower-cased states it accepts (empty: any). */
  datatype Config = Config(
    name: string,
    asin: string,
    cutPrice: real,
    autocheckout: bool,
    filter: seq<string>)

  /** The memory a monitor carries from one cycle to the next. */
  datatype MonitorState = MonitorState(previousMainPrice: real, previousOfferPrices: seq<real>)

  /** A fresh monitor: previous featured price 0.0, no previous offers. */
  const Initial: MonitorState := MonitorState(0.0, [])

  /** The featured offer, or the other offer at a given position of the page's
      offer list. */
  datatype Slot = Main | Other(index: nat)

  /** The classes of the classification log lines. */
  datatype Verdict =
    | Unavailable   // featured price is the "no price" value
    | Unreadable    // other-offer price is negative
    | FilteredOut   // state not among the wanted ones
    | Accepted      // price at or under the cut price
    | TooHigh       // price over the cut price

  /** The observable effects of a cycle, in order. */
  datatype Event =
    | Classified(slot: Slot, verdict: Verdict, price: real)  // the gated log line
    | OffersFound(count: nat)                                 // "n other offers found"
    | HeadingMissing(index: nat)                              // offer without a condition heading
    | OfferFailed(index: nat)                                 // an error while handling one offer
    | Notified(slot: Slot, price: real)                       // the price-drop message
    | AddedToCart(slot: Slot)
    | Bought(slot: Slot)
    | CycleFailed                                             // the cycle-level error handler ran

  /** The state filter: empty accepts everything, otherwise the state's name
      must be one of the listed names. */
  predicate Wanted(cfg: Config, state: Condition) {
    |cfg.filter| == 0 || state.Name() in cfg.filter
  }

  /** The featured offer's classification: exactly the "no price" value
      first, then the filter, then the cut price. */
  function ClassifyMain(cfg: Config, price: real, state: Condition): (v: Verdict)
    ensures v != Unreadable
    ensures v == Unavailable <==> price == NoPrice
    ensures v == FilteredOut <==> price != NoPrice && !Wanted(cfg, state)
    ensures v == Accepted <==> price != NoPrice && Wanted(cfg, state) && price <= cfg.cutPrice
  {
    if price == NoPrice then Unavailable
    else if !Wanted(cfg, state) then FilteredOut
    else if price <= cfg.cutPrice then Accepted
    else TooHigh
  }

  /** An other offer's classification: any negative price first, then the
      filter, then the cut price. */
  function ClassifyOffer(cfg: Config, price: real, state: Condition): (v: Verdict)
    ensures v != Unavailable
    ensures v == Unreadable <==> price < 0.0
    ensures v == FilteredOut <==> price >= 0.0 && !Wanted(cfg, state)
    ensures v == Accepted <==> price >= 0.0 && Wanted(cfg, state) && price <= cfg.cutPrice
  {
    if price < 0.0 then Unreadable
    else if !Wanted(cfg, state) then FilteredOut
    else if price <= cfg.cutPrice then Accepted
    else TooHigh
  }

  /** The two classifications agree on every non-negative price and on the
      "no price" value; they differ on the other negative prices, which the
      featured-offer rule goes on to judge by the filter and the cut price. */
  lemma ClassificationsAgree(cfg: Config, price: real, state: Condition)
    ensures price >= 0.0 ==> ClassifyMain(cfg, price, state) == ClassifyOffer(cfg, price, state)
    ensures price == NoPrice ==>
      ClassifyMain(cfg, price, state) != Accepted && ClassifyOffer(cfg, price, state) != Accepted
    ensures price < 0.0 && price != NoPrice && Wanted(cfg, state) && price <= cfg.cutPrice ==>
      ClassifyMain(cfg, price, state) == Accepted && ClassifyOffer(cfg, price, state) == Unreadable
  {
  }

  /** The classification log line, present only when the price changed. */
  function Gated(changed: bool, slot: Slot, v: Verdict, price: real): (r: seq<Event>)
    ensures |r| <= 1
  {
    if changed then [Classified(slot, v, price)] else []
  }

  /** What the featured-offer step produced, and whether it ran to its end
      (`false`: the add-to-cart click raised, and the cycle was abandoned). */
  datatype MainStep = MainStep(events: seq<Event>, completed: bool)

  /** The featured-offer step. The log line is gated on the price differing
      from the previous featured price; the notification and the cart or buy
      step are not gated. */
  function ProcessMain(cfg: Config, st: MonitorState, reading: MainReading): (m: MainStep)
    ensures !m.completed <==>
      && ClassifyMain(cfg, reading.price, reading.state) == Accepted
      && !cfg.autocheckout
      && !(reading.container.Some? && reading.container.value.cartOk)
    ensures forall e | e in m.events :: e.Classified? ==> e.slot == Main
  {
    var v := ClassifyMain(cfg, reading.price, reading.state);
    var log := Gated(reading.price != st.previousMainPrice, Main, v, reading.price);
    if v != Accepted then MainStep(log, true)
    else
      var told := log + [Notified(Main, reading.price)];
      if cfg.autocheckout then MainStep(told + [Bought(Main)], true)
      else if reading.container.Some? && reading.container.value.cartOk then MainStep(told + [AddedToCart(Main)], true)
      else MainStep(told + [CycleFailed], false)
  }

  /** An other offer as read from the page, with whether its add-to-cart
      button can be clicked. */
  datatype SeenOffer = SeenOffer(reading: OfferReading, cartOk: bool)

  /** The readings of the page's other offers, in page order. */
  function SeeOffers(offers: seq<OfferBlock>): seq<SeenOffer> {
    seq(|offers|, j requires 0 <= j < |offers| => SeenOffer(ReadOffer(offers[j]), offers[j].cartOk))
  }

  /** The walk takes (and so stops at) this offer: it is readable, accepted,
      and either bought or successfully added to the cart. */
  predicate Takes(cfg: Config, o: SeenOffer) {
    && o.reading.Priced?
    && ClassifyOffer(cfg, o.reading.price, o.reading.state) == Accepted
    && (cfg.autocheckout || o.cartOk)
  }

  /** The handling of one other offer: its events, the price it records for
      the next cycle (none when skipped), and whether the walk stops here. */
  datatype Visit = Visit(events: seq<Event>, recorded: seq<real>, stop: bool)

  /** One other offer, at page position `i`. An offer without heading or
      without a readable price is skipped and records nothing. A readable
      offer records its price; its log line is gated on position `i` of the
      previous list being absent or different. An accepted offer is
      notified; then it is bought or added to the cart, which stops the walk,
      or the cart click fails, which is reported and the walk goes on. */
  function VisitOffer(cfg: Config, prev: seq<real>, o: SeenOffer, i: nat): (v: Visit)
    ensures v.stop <==> Takes(cfg, o)
    ensures o.reading.Priced? ==> v.recorded == [o.reading.price]
    ensures !o.reading.Priced? ==> v.recorded == []
    ensures o.reading.Priced? ==>
      (Classified(Other(i), ClassifyOffer(cfg, o.reading.price, o.reading.state), o.reading.price) in v.events
       <==> (i >= |prev| || prev[i] != o.reading.price))
    ensures o.reading.Priced? && ClassifyOffer(cfg, o.reading.price, o.reading.state) == Accepted ==>
      && Notified(Other(i), o.reading.price) in v.events
      && (cfg.autocheckout ==> Bought(Other(i)) in v.events)
      && (!cfg.autocheckout ==> (AddedToCart(Other(i)) in v.events <==> o.cartOk))
      && (!cfg.autocheckout && !o.cartOk ==> OfferFailed(i) in v.events)
    ensures o.reading.Priced? && (i >= |prev| || prev[i] != o.reading.price) ==>
      |v.events| > 0 && v.events[0].Classified?
    ensures o.reading.Priced? && ClassifyOffer(cfg, o.reading.price, o.reading.state) == Accepted ==>
      && |v.events| >= 2
      && v.events[|v.events| - 2] == Notified(Other(i), o.reading.price)
      && v.events[|v.events| - 1]
         == (if cfg.autocheckout then Bought(Other(i)) else if o.cartOk then AddedToCart(Other(i)) else OfferFailed(i))
    ensures o.reading.Priced? && ClassifyOffer(cfg, o.reading.price, o.reading.state) != Accepted ==>
      forall e | e in v.events :: e.Classified?
    ensures !o.reading.Priced? ==>
      forall e | e in v.events :: !e.Classified? && !e.Notified? && !e.AddedToCart? && !e.Bought?
    ensures o.reading.NoHeading? ==> v.events == [HeadingMissing(i)]
    ensures o.reading.NoPriceRead? ==> v.events == [OfferFailed(i)]
  {
    match o.reading
    case NoHeading => Visit([HeadingMissing(i)], [], false)
    case NoPriceRead(_) => Visit([OfferFailed(i)], [], false)
    case Priced(state, p) =>
      var v := ClassifyOffer(cfg, p, state);
      var log := Gated(i >= |prev| || prev[i] != p, Other(i), v, p);
      if v != Accepted then Visit(log, [p], false)
      else if cfg.autocheckout then Visit(log + [Notified(Other(i), p), Bought(Other(i))], [p], true)
      else if o.cartOk then Visit(log + [Notified(Other(i), p), AddedToCart(Other(i))], [p], true)
      else Visit(log + [Notified(Other(i), p), OfferFailed(i)], [p], false)
  }

  /** The result of walking the other offers: the events, and the prices
      recorded for the next cycle's comparison. */
  datatype Scan = Scan(events: seq<Event>, prices: seq<real>)

  /** The walk over the other offers from position `i` on, stopping after the
      first offer it takes. */
  function ScanOffers(cfg: Config, prev: seq<real>, offers: seq<SeenOffer>, i: nat): (s: Scan)
    requires i <= |offers|
    ensures |s.prices| <= |offers| - i
    ensures forall e | e in s.events :: !e.OffersFound?
    decreases |offers| - i
  {
    if i == |offers| then Scan([], [])
    else
      var v := VisitOffer(cfg, prev, offers[i], i);
      if v.stop then Scan(v.events, v.recorded)
      else
        var rest := ScanOffers(cfg, prev, offers, i + 1);
        Scan(v.events + rest.events, v.recorded + rest.prices)
  }

  /** How far a cycle got before the monitor's stop flag was seen: the flag
      is checked at the top of the loop, after the page is read, after the
      featured offer and after the other offers. */
  datatype StopPoint = AtLoopTop | AfterScrape | AfterMain | AfterOffers | NotRequested

  /** The input of one cycle: the page (absent when loading it raised) and
      the first check at which the stop flag is found set. */
  datatype Observation = Observation(page: Option<Page>, stop: StopPoint)

  /** The output of one cycle: the new memory, the events, and whether the
      monitor loops again. */
  datatype Outcome = Outcome(state: MonitorState, events: seq<Event>, running: bool)

  /** The part of a cycle after the page was read: the featured step, then
      (unless the cycle was abandoned or stopped) the other offers. */
  function ProcessPage(cfg: Config, st: MonitorState, reading: MainReading, offers: seq<SeenOffer>, stop: StopPoint): (o: Outcome)
    ensures !o.running <==>
      && ProcessMain(cfg, st, reading).completed
      && (stop == AfterMain || (stop == AfterOffers && |offers| > 0))
  {
    var m := ProcessMain(cfg, st, reading);
    if !m.completed then Outcome(st, m.events, true)
    else
      var st1 := st.(previousMainPrice := reading.price);
      if stop == AfterMain then Outcome(st1, m.events, false)
      else
        var n := |offers|;
        var found := if n != |st.previousOfferPrices| then [OffersFound(n)] else [];
        if n == 0 then Outcome(st1, m.events + found, true)
        else
          var s := ScanOffers(cfg, st.previousOfferPrices, offers, 0);
          Outcome(st1.(previousOfferPrices := s.prices), m.events + found + s.events, stop != AfterOffers)
  }

  /** One iteration of the monitor loop. */
  function Cycle(cfg: Config, st: MonitorState, obs: Observation): (o: Outcome)
    ensures obs.stop == AtLoopTop ==> o == Outcome(st, [], false)
    ensures obs.stop == NotRequested ==> o.running
    ensures obs.page.None? ==> o.state == st
  {
    if obs.stop == AtLoopTop then Outcome(st, [], false)
    else match obs.page
      case None => Outcome(st, [CycleFailed], true)
      case Some(page) =>
        if obs.stop == AfterScrape then Outcome(st, [], false)
        else ProcessPage(cfg, st, ScrapeMain(page), SeeOffers(page.offers), obs.stop)
  }
}

=== FILE: engine_facts.dfy ===
/** Properties of a monitoring cycle: the change gate, what triggers the
    notification and the purchase, and what the other-offer walk records for
    the next cycle. */
module EngineFacts {
  import opened Conditions
  import opened Locate
  import opened Scrape
  import opened Engine

  /** Some event of `events` is a classification log line for `slot`. */
  predicate Logged(events: seq<Event>, slot: Slot) {
    exists k | 0 <= k < |events| :: events[k].Classified? && events[k].slot == slot
  }

  // ---------------------------------------------------------------------------
  // The featured offer.

  /** The featured offer's log line is written exactly when its price differs
      from the previous featured price, and it carries the classification. */
  lemma MainLogIsGated(cfg: Config, st: MonitorState, reading: MainReading)
    ensures Logged(ProcessMain(cfg, st, reading).events, Main) <==> reading.price != st.previousMainPrice
    ensures reading.price != st.previousMainPrice ==>
      ProcessMain(cfg, st, reading).events[0]
        == Classified(Main, ClassifyMain(cfg, reading.price, reading.state), reading.price)
  {
    var es := ProcessMain(cfg, st, reading).events;
    if reading.price != st.previousMainPrice {
      assert es[0].Classified?;
    } else {
      forall k | 0 <= k < |es|
        ensures !es[k].Classified?
      {
      }
    }
  }

  /** The price-drop message for the featured offer goes out exactly when the
      offer is accepted, whether or not the price changed, and it carries the
      current price. */
  lemma MainNotifiesIffAccepted(cfg: Config, st: MonitorState, reading: MainReading)
    ensures Notified(Main, reading.price) in ProcessMain(cfg, st, reading).events
        <==> ClassifyMain(cfg, reading.price, reading.state) == Accepted
    ensures forall e | e in ProcessMain(cfg, st, reading).events && e.Notified? ::
      e == Notified(Main, reading.price)
    ensures multiset(ProcessMain(cfg, st, reading).events)[Notified(Main, reading.price)]
      == if ClassifyMain(cfg, reading.price, reading.state) == Accepted then 1 else 0
  {
  }

  /** Accepting the featured offer buys it under autocheckout and otherwise
      adds it to the cart; a failed cart click abandons the cycle. */
  lemma MainTakesAccepted(cfg: Config, st: MonitorState, reading: MainReading)
    requires ClassifyMain(cfg, reading.price, reading.state) == Accepted
    ensures cfg.autocheckout ==> Bought(Main) in ProcessMain(cfg, st, reading).events
    ensures !cfg.autocheckout ==>
      (AddedToCart(Main) in ProcessMain(cfg, st, reading).events
       <==> reading.container.Some? && reading.container.value.cartOk)
    ensures !ProcessMain(cfg, st, reading).completed <==>
      !cfg.autocheckout && !(reading.container.Some? && reading.container.value.cartOk)
    ensures var es := ProcessMain(cfg, st, reading).events;
      && |es| >= 2
      && es[|es| - 2] == Notified(Main, reading.price)
      && es[|es| - 1] == (if cfg.autocheckout then Bought(Main)
                          else if reading.container.Some? && reading.container.value.cartOk then AddedToCart(Main)
                          else CycleFailed)
  {
    var m := ProcessMain(cfg, st, reading);
    var told := Gated(reading.price != st.previousMainPrice, Main,
                      ClassifyMain(cfg, reading.price, reading.state), reading.price)
                + [Notified(Main, reading.price)];
    assert AddedToCart(Main) !in told;
    assert AddedToCart(Main) !in told + [CycleFailed];
  }

  /** The featured step never does anything twice, and it does nothing but
      log unless the offer is accepted. */
  lemma MainActsOnce(cfg: Config, st: MonitorState, reading: MainReading)
    ensures forall e | e in ProcessMain(cfg, st, reading).events ::
      multiset(ProcessMain(cfg, st, reading).events)[e] == 1
    ensures forall e | e in ProcessMain(cfg, st, reading).events && !e.Classified? ::
      ClassifyMain(cfg, reading.price, reading.state) == Accepted
  {
  }

  // ---------------------------------------------------------------------------
  // The other offers.

  /** The prices of the readable offers of `os`, in order: what a walk over
      all of `os` records. */
  function ParsedPrices(os: seq<SeenOffer>): (ps: seq<real>)
    ensures |ps| <= |os|
  {
    if os == [] then []
    else (if os[0].reading.Priced? then [os[0].reading.price] else []) + ParsedPrices(os[1..])
  }

  /** A walk starting at `i` ends just before position `k`: after the first
      offer it takes, or at the end of the list when it takes none. */
  predicate StopsAt(cfg: Config, offers: seq<SeenOffer>, i: nat, k: nat) {
    && i <= k <= |offers|
    && (|| (i < k && Takes(cfg, offers[k - 1]) && forall j | i <= j < k - 1 :: !Takes(cfg, offers[j]))
        || (k == |offers| && forall j | i <= j < k :: !Takes(cfg, offers[j])))
  }

  /** Exactly the prices of the readable offers up to where the walk stops are
      recorded for the next cycle. */
  lemma {:induction false} ScanRecordsParsedPrices(cfg: Config, prev: seq<real>, offers: seq<SeenOffer>, i: nat, k: nat)
    requires i <= |offers|
    requires StopsAt(cfg, offers, i, k)
    ensures ScanOffers(cfg, prev, offers, i).prices == ParsedPrices(offers[i..k])
    decreases |offers| - i
  {
    if i < |offers| {
      var o := offers[i];
      var tail := offers[i..k];
      if Takes(cfg, o) {
        assert k == i + 1;
        assert tail == [o];
        assert tail[1..] == [];
      } else {
        assert i < k;
        assert tail[1..] == offers[i + 1..k];
        assert StopsAt(cfg, offers, i + 1, k);
        ScanRecordsParsedPrices(cfg, prev, offers, i + 1, k);
      }
    }
  }

  /** The walk ends somewhere. */
  lemma {:induction false} WalkStops(cfg: Config, offers: seq<SeenOffer>, i: nat) returns (k: nat)
    requires i <= |offers|
    ensures StopsAt(cfg, offers, i, k)
    decreases |offers| - i
  {
    if i == |offers| {
      k := i;
    } else if Takes(cfg, offers[i]) {
      k := i + 1;
    } else {
      k := WalkStops(cfg, offers, i + 1);
    }
  }

  /** Every log line of a visit is about that offer, at a position whose
      previous price is absent or different. */
  predicate GatedLine(prev: seq<real>, i: nat, e: Event) {
    e.Classified? ==> e.slot == Other(i) && (i >= |prev| || prev[i] != e.price)
  }

  lemma VisitLogsAreGated(cfg: Config, prev: seq<real>, o: SeenOffer, i: nat)
    ensures forall e | e in VisitOffer(cfg, prev, o, i).events :: GatedLine(prev, i, e)
  {
  }

  /** Every log line of the walk is about an other offer, at a position whose
      previous price is absent or different. */
  lemma {:induction false} ScanLogsOnlyOthers(cfg: Config, prev: seq<real>, offers: seq<SeenOffer>, i: nat)
    requires i <= |offers|
    ensures forall e | e in ScanOffers(cfg, prev, offers, i).events && e.Classified? ::
      && e.slot.Other?
      && i <= e.slot.index < |offers|
      && (e.slot.index >= |prev| || prev[e.slot.index] != e.price)
    decreases |offers| - i
  {
    if i < |offers| {
      VisitLogsAreGated(cfg, prev, offers[i], i);
      ScanLogsOnlyOthers(cfg, prev, offers, i + 1);
    }
  }

  /** The walk justifies every action it takes: a message, a cart addition or
      a purchase names a readable, accepted offer at the right position. */
  predicate Justified(cfg: Config, offers: seq<SeenOffer>, e: Event) {
    match e
    case Notified(slot, p) =>
      && slot.Other? && slot.index < |offers|
      && offers[slot.index].reading.Priced?
      && offers[slot.index].reading.price == p
      && ClassifyOffer(cfg, p, offers[slot.index].reading.state) == Accepted
    case AddedToCart(slot) =>
      slot.Other? && slot.index < |offers| && !cfg.autocheckout && Takes(cfg, offers[slot.index])
    case Bought(slot) =>
      slot.Other? && slot.index < |offers| && cfg.autocheckout && Takes(cfg, offers[slot.index])
    case _ => true
  }

  lemma VisitIsJustified(cfg: Config, prev: seq<real>, offers: seq<SeenOffer>, i: nat)
    requires i < |offers|
    ensures forall e | e in VisitOffer(cfg, prev, offers[i], i).events :: Justified(cfg, offers, e)
  {
  }

  lemma {:induction false} ScanActsOnlyOnOthers(cfg: Config, prev: seq<real>, offers: seq<SeenOffer>, i: nat)
    requires i <= |offers|
    ensures forall e | e in ScanOffers(cfg, prev, offers, i).events :: Justified(cfg, offers, e)
    decreases |offers| - i
  {
    if i < |offers| {
      VisitIsJustified(cfg, prev, offers, i);
      ScanActsOnlyOnOthers(cfg, prev, offers, i + 1);
    }
  }

  /** Every offer the walk reaches, that is every offer not preceded by one
      it takes, contributes all of its events to the walk. */
  lemma {:induction false} ScanIncludesVisit(cfg: Config, prev: seq<real>, offers: seq<SeenOffer>, i: nat, j: nat)
    requires i <= j < |offers|
    requires forall m | i <= m < j :: !Takes(cfg, offers[m])
    ensures forall e | e in VisitOffer(cfg, prev, offers[j], j).events :: e in ScanOffers(cfg, prev, offers, i).events
    decreases j - i
  {
    var v := VisitOffer(cfg, prev, offers[i], i);
    if i < j {
      ScanIncludesVisit(cfg, prev, offers, i + 1, j);
      assert ScanOffers(cfg, prev, offers, i).events == v.events + ScanOffers(cfg, prev, offers, i + 1).events;
    } else {
      var s := ScanOffers(cfg, prev, offers, i);
      assert v.events <= s.events;
    }
  }

  /** Every readable offer the walk reaches is logged, with its
      classification, exactly when its position of the previous list is
      absent or holds another price. */
  lemma ScanLogsEveryChange(cfg: Config, prev: seq<real>, offers: seq<SeenOffer>, j: nat)
    requires j < |offers| && offers[j].reading.Priced?
    requires forall m | 0 <= m < j :: !Takes(cfg, offers[m])
    ensures var p := offers[j].reading.price;
      Classified(Other(j), ClassifyOffer(cfg, p, offers[j].reading.state), p) in ScanOffers(cfg, prev, offers, 0).events
      <==> (j >= |prev| || prev[j] != p)
  {
    ScanIncludesVisit(cfg, prev, offers, 0, j);
    ScanLogsOnlyOthers(cfg, prev, offers, 0);
  }

  /** Every accepted offer the walk reaches is notified with its price, then
      bought under autocheckout, otherwise added to the cart exactly when its
      button works. */
  lemma ScanTakesReachedAccepted(cfg: Config, prev: seq<real>, offers: seq<SeenOffer>, j: nat)
    requires j < |offers| && offers[j].reading.Priced?
    requires ClassifyOffer(cfg, offers[j].reading.price, offers[j].reading.state) == Accepted
    requires forall m | 0 <= m < j :: !Takes(cfg, offers[m])
    ensures Notified(Other(j), offers[j].reading.price) in ScanOffers(cfg, prev, offers, 0).events
    ensures cfg.autocheckout ==> Bought(Other(j)) in ScanOffers(cfg, prev, offers, 0).events
    ensures !cfg.autocheckout ==>
      (AddedToCart(Other(j)) in ScanOffers(cfg, prev, offers, 0).events <==> offers[j].cartOk)
    ensures multiset(ScanOffers(cfg, prev, offers, 0).events)[Notified(Other(j), offers[j].reading.price)] == 1
    ensures multiset(ScanOffers(cfg, prev, offers, 0).events)[AddedToCart(Other(j))] <= 1
    ensures multiset(ScanOffers(cfg, prev, offers, 0).events)[Bought(Other(j))] <= 1
  {
    ScanNeverRepeats(cfg, prev, offers, 0);
    ScanIncludesVisit(cfg, prev, offers, 0, j);
    ScanActsOnlyOnOthers(cfg, prev, offers, 0);
    if !cfg.autocheckout && AddedToCart(Other(j)) in ScanOffers(cfg, prev, offers, 0).events {
      assert Justified(cfg, offers, AddedToCart(Other(j)));
    }
  }

  /** The event concerns an other offer at a position in `[i, k)`. */
  predicate WithinWalk(e: Event, i: nat, k: nat) {
    match e
    case Classified(slot, _, _) => slot.Other? && i <= slot.index < k
    case Notified(slot, _) => slot.Other? && i <= slot.index < k
    case AddedToCart(slot) => slot.Other? && i <= slot.index < k
    case Bought(slot) => slot.Other? && i <= slot.index < k
    case HeadingMissing(n) => i <= n < k
    case OfferFailed(n) => i <= n < k
    case _ => false
  }

  lemma VisitWithin(cfg: Config, prev: seq<real>, o: SeenOffer, i: nat)
    ensures forall e | e in VisitOffer(cfg, prev, o, i).events :: WithinWalk(e, i, i + 1)
  {
  }

  lemma WithinWider(e: Event, i: nat, k: nat, i2: nat, k2: nat)
    requires WithinWalk(e, i, k) && i2 <= i && k <= k2
    ensures WithinWalk(e, i2, k2)
  {
  }

  /** The walk stops after the first offer it takes: every event it produces
      concerns an offer from its start up to that stopping point, and the
      offers after it are not looked at. */
  lemma {:induction false} ScanEndsAtStop(cfg: Config, prev: seq<real>, offers: seq<SeenOffer>, i: nat, k: nat)
    requires i <= |offers| && StopsAt(cfg, offers, i, k)
    ensures forall e | e in ScanOffers(cfg, prev, offers, i).events :: WithinWalk(e, i, k)
    decreases |offers| - i
  {
    if i < |offers| {
      var v := VisitOffer(cfg, prev, offers[i], i);
      var es := ScanOffers(cfg, prev, offers, i).events;
      VisitWithin(cfg, prev, offers[i], i);
      if Takes(cfg, offers[i]) {
        assert es == v.events;
      } else {
        assert StopsAt(cfg, offers, i + 1, k);
        ScanEndsAtStop(cfg, prev, offers, i + 1, k);
        var rest := ScanOffers(cfg, prev, offers, i + 1).events;
        assert es == v.events + rest;
        forall e | e in es
          ensures WithinWalk(e, i, k)
        {
          if e in v.events {
            WithinWider(e, i, i + 1, i, k);
          } else {
            WithinWider(e, i + 1, k, i, k);
          }
        }
      }
    }
  }

  /** Every event of the walk from `i` on concerns an offer at or after `i`. */
  lemma ScanStaysInWalk(cfg: Config, prev: seq<real>, offers: seq<SeenOffer>, i: nat)
    requires i <= |offers|
    ensures forall e | e in ScanOffers(cfg, prev, offers, i).events :: WithinWalk(e, i, |offers|)
  {
    var k := WalkStops(cfg, offers, i);
    ScanEndsAtStop(cfg, prev, offers, i, k);
    forall e | e in ScanOffers(cfg, prev, offers, i).events
      ensures WithinWalk(e, i, |offers|)
    {
      WithinWider(e, i, k, i, |offers|);
    }
  }

  lemma WithinExcludes(e: Event, a: nat, b: nat, c: nat, d: nat)
    requires WithinWalk(e, a, b) && b <= c
    ensures !WithinWalk(e, c, d)
  {
  }

  /** One visit never produces the same event twice. */
  lemma VisitNeverRepeats(cfg: Config, prev: seq<real>, o: SeenOffer, i: nat)
    ensures forall e | e in VisitOffer(cfg, prev, o, i).events :: multiset(VisitOffer(cfg, prev, o, i).events)[e] == 1
  {
  }

  /** The walk never produces the same event twice: no offer is logged,
      notified, added to the cart or bought more than once. */
  lemma {:induction false} ScanNeverRepeats(cfg: Config, prev: seq<real>, offers: seq<SeenOffer>, i: nat)
    requires i <= |offers|
    ensures forall e | e in ScanOffers(cfg, prev, offers, i).events ::
      multiset(ScanOffers(cfg, prev, offers, i).events)[e] == 1
    decreases |offers| - i
  {
    if i < |offers| {
      var v := VisitOffer(cfg, prev, offers[i], i);
      VisitNeverRepeats(cfg, prev, offers[i], i);
      if !v.stop {
        var rest := ScanOffers(cfg, prev, offers, i + 1).events;
        ScanNeverRepeats(cfg, prev, offers, i + 1);
        ScanStaysInWalk(cfg, prev, offers, i + 1);
        VisitWithin(cfg, prev, offers[i], i);
        var es := v.events + rest;
        assert ScanOffers(cfg, prev, offers, i).events == es;
        forall e | e in es
          ensures multiset(es)[e] == 1
        {
          if e in v.events {
            WithinExcludes(e, i, i + 1, i + 1, |offers|);
            assert e !in rest;
          } else {
            assert e !in multiset(v.events);
          }
        }
      }
    }
  }

  /** The event is a log line, a message, a cart addition or a purchase for
      the other offer at position `j`. */
  predicate ConcernsOffer(e: Event, j: nat) {
    match e
    case Classified(slot, _, _) => slot == Other(j)
    case Notified(slot, _) => slot == Other(j)
    case AddedToCart(slot) => slot == Other(j)
    case Bought(slot) => slot == Other(j)
    case _ => false
  }

  lemma VisitConcernsNoOther(cfg: Config, prev: seq<real>, o: SeenOffer, i: nat, j: nat)
    requires i != j || !o.reading.Priced?
    ensures forall e | e in VisitOffer(cfg, prev, o, i).events :: !ConcernsOffer(e, j)
  {
    if i != j {
      VisitWithin(cfg, prev, o, i);
    }
  }

  /** An offer without heading or without a readable price is never
      classified, notified, added to the cart or bought; only the missing
      heading or the failure is reported for it. */
  lemma {:induction false} ScanSkipsUnreadable(cfg: Config, prev: seq<real>, offers: seq<SeenOffer>, i: nat, j: nat)
    requires i <= |offers| && j < |offers| && !offers[j].reading.Priced?
    ensures forall e | e in ScanOffers(cfg, prev, offers, i).events :: !ConcernsOffer(e, j)
    decreases |offers| - i
  {
    if i < |offers| {
      var v := VisitOffer(cfg, prev, offers[i], i);
      VisitConcernsNoOther(cfg, prev, offers[i], i, j);
      if !v.stop {
        ScanSkipsUnreadable(cfg, prev, offers, i + 1, j);
        assert ScanOffers(cfg, prev, offers, i).events == v.events + ScanOffers(cfg, prev, offers, i + 1).events;
      }
    }
  }

  /** No other offer with a negative price or a filtered-out state is ever
      notified, added to the cart or bought. */
  lemma NeverActsOnRejectedOffers(cfg: Config, prev: seq<real>, offers: seq<SeenOffer>, j: nat)
    requires j < |offers| && offers[j].reading.Priced?
    requires offers[j].reading.price < 0.0 || !Wanted(cfg, offers[j].reading.state)
    ensures forall e | e in ScanOffers(cfg, prev, offers, 0).events ::
      e != AddedToCart(Other(j)) && e != Bought(Other(j)) && !(e.Notified? && e.slot == Other(j))
  {
    ScanActsOnlyOnOthers(cfg, prev, offers, 0);
  }

  /** Every offer up to where the walk stops is readable. */
  predicate AllReadable(offers: seq<SeenOffer>, i: nat) {
    forall j | i <= j < |offers| :: offers[j].reading.Priced?
  }

  /** When every offer is readable, the recorded list holds each reached
      offer's price at its own position. */
  lemma {:induction false} ReadableScanAligns(cfg: Config, prev: seq<real>, offers: seq<SeenOffer>, i: nat, j: nat)
    requires i <= j < |offers| && AllReadable(offers, i)
    requires forall m | i <= m < j :: !Takes(cfg, offers[m])
    ensures j - i < |ScanOffers(cfg, prev, offers, i).prices|
    ensures ScanOffers(cfg, prev, offers, i).prices[j - i] == offers[j].reading.price
    decreases j - i
  {
    var s := ScanOffers(cfg, prev, offers, i);
    if i < j {
      ReadableScanAligns(cfg, prev, offers, i + 1, j);
      var rest := ScanOffers(cfg, prev, offers, i + 1);
      assert s.prices == [offers[i].reading.price] + rest.prices;
    }
  }

  /** A visit whose position holds the offer's own price logs nothing. */
  lemma VisitMatchingIsQuiet(cfg: Config, prev: seq<real>, o: SeenOffer, i: nat)
    requires o.reading.Priced? && i < |prev| && prev[i] == o.reading.price
    ensures forall e | e in VisitOffer(cfg, prev, o, i).events :: !e.Classified?
  {
  }

  /** A walk whose previous list matches every reached offer's price at its
      position logs nothing. */
  lemma {:induction false} MatchingScanIsQuiet(cfg: Config, prev: seq<real>, offers: seq<SeenOffer>, i: nat)
    requires i <= |offers| && AllReadable(offers, i)
    requires forall j | i <= j < |offers| && (forall m | i <= m < j :: !Takes(cfg, offers[m])) ::
      j < |prev| && prev[j] == offers[j].reading.price
    ensures forall e | e in ScanOffers(cfg, prev, offers, i).events :: !e.Classified?
    decreases |offers| - i
  {
    if i < |offers| {
      VisitMatchingIsQuiet(cfg, prev, offers[i], i);
      if !Takes(cfg, offers[i]) {
        forall j | i + 1 <= j < |offers| && (forall m | i + 1 <= m < j :: !Takes(cfg, offers[m]))
          ensures j < |prev| && prev[j] == offers[j].reading.price
        {
          assert forall m | i <= m < j :: !Takes(cfg, offers[m]);
        }
        MatchingScanIsQuiet(cfg, prev, offers, i + 1);
      }
    }
  }

  /** With every offer readable, walking the same offers again with the list
      the first walk recorded logs nothing. */
  lemma RescanIsQuiet(cfg: Config, prev: seq<real>, offers: seq<SeenOffer>)
    requires AllReadable(offers, 0)
    ensures forall e | e in ScanOffers(cfg, ScanOffers(cfg, prev, offers, 0).prices, offers, 0).events ::
      !e.Classified?
  {
    var recorded := ScanOffers(cfg, prev, offers, 0).prices;
    forall j | 0 <= j < |offers| && (forall m | 0 <= m < j :: !Takes(cfg, offers[m]))
      ensures j < |recorded| && recorded[j] == offers[j].reading.price
    {
      ReadableScanAligns(cfg, prev, offers, 0, j);
    }
    MatchingScanIsQuiet(cfg, recorded, offers, 0);
  }

  /** The positional gate compares an offer with the recorded price at its
      page position, but skipped offers record nothing, so after an offer
      without heading the positions no longer line up: the same page logs the
      same offer again on the next cycle. */
  lemma SkippedOfferMisalignsGate()
    ensures
      var cfg := Config("p", "A", 1.0, false, []);
      var offers := [SeenOffer(NoHeading, false), SeenOffer(Priced(New, 5.0), true)];
      var first := ScanOffers(cfg, [], offers, 0);
      var second := ScanOffers(cfg, first.prices, offers, 0);
      first.prices == [5.0] && Classified(Other(1), TooHigh, 5.0) in second.events
  {
    var cfg := Config("p", "A", 1.0, false, []);
    var offers := [SeenOffer(NoHeading, false), SeenOffer(Priced(New, 5.0), true)];
    var first := ScanOffers(cfg, [], offers, 0);
    assert ScanOffers(cfg, [], offers, 1).prices == [5.0];
    var second := ScanOffers(cfg, [5.0], offers, 0);
    assert VisitOffer(cfg, [5.0], offers[1], 1).events == [Classified(Other(1), TooHigh, 5.0)];
    assert ScanOffers(cfg, [5.0], offers, 1).events == [Classified(Other(1), TooHigh, 5.0)];
  }

  // ---------------------------------------------------------------------------
  // A cycle, once the page is read.

  /** The previous featured price becomes the current one when the featured
      step completes; an abandoned cycle changes nothing. */
  lemma PageRemembersMainPrice(cfg: Config, st: MonitorState, r: MainReading, offers: seq<SeenOffer>, stop: StopPoint)
    ensures ProcessMain(cfg, st, r).completed ==>
      ProcessPage(cfg, st, r, offers, stop).state.previousMainPrice == r.price
    ensures !ProcessMain(cfg, st, r).completed ==> ProcessPage(cfg, st, r, offers, stop).state == st
  {
  }

  /** No step after the featured one logs about the featured offer. */
  lemma OnlyMainStepLogsMain(cfg: Config, st: MonitorState, r: MainReading, offers: seq<SeenOffer>, stop: StopPoint)
    ensures Logged(ProcessPage(cfg, st, r, offers, stop).events, Main) ==> Logged(ProcessMain(cfg, st, r).events, Main)
  {
    var m := ProcessMain(cfg, st, r);
    var es := ProcessPage(cfg, st, r, offers, stop).events;
    if m.completed && stop != AfterMain && |offers| > 0 {
      ScanLogsOnlyOthers(cfg, st.previousOfferPrices, offers, 0);
      var found := if |offers| != |st.previousOfferPrices| then [OffersFound(|offers|)] else [];
      var s := ScanOffers(cfg, st.previousOfferPrices, offers, 0);
      assert es == m.events + found + s.events;
    }
  }

  /** The event is a log line, a message, a cart addition or a purchase for
      the featured offer. */
  predicate AboutMain(e: Event) {
    match e
    case Classified(slot, _, _) => slot == Main
    case Notified(slot, _) => slot == Main
    case AddedToCart(slot) => slot == Main
    case Bought(slot) => slot == Main
    case _ => false
  }

  /** Joining two event lists without repeats and without a common event
      gives a list without repeats. */
  lemma ConcatNeverRepeats(a: seq<Event>, b: seq<Event>)
    requires forall e | e in a :: multiset(a)[e] == 1
    requires forall e | e in b :: multiset(b)[e] == 1
    requires forall e | e in a :: e !in b
    ensures forall e | e in a + b :: multiset(a + b)[e] == 1
  {
    forall e | e in a + b
      ensures multiset(a + b)[e] == 1
    {
      if e in a {
        assert e !in multiset(b);
      } else {
        assert e !in multiset(a);
      }
    }
  }

  /** What a page adds after the featured step when it goes on to the other
      offers: the offer count when it changed, then the walk. */
  function WalkPart(cfg: Config, st: MonitorState, offers: seq<SeenOffer>): seq<Event> {
    (if |offers| != |st.previousOfferPrices| then [OffersFound(|offers|)] else [])
    + (if |offers| > 0 then ScanOffers(cfg, st.previousOfferPrices, offers, 0).events else [])
  }

  lemma WalkPartNeverRepeats(cfg: Config, st: MonitorState, offers: seq<SeenOffer>)
    ensures forall e | e in WalkPart(cfg, st, offers) :: e.OffersFound? || WithinWalk(e, 0, |offers|)
    ensures forall e | e in WalkPart(cfg, st, offers) :: multiset(WalkPart(cfg, st, offers))[e] == 1
  {
    var found := if |offers| != |st.previousOfferPrices| then [OffersFound(|offers|)] else [];
    var tail: seq<Event> := [];
    if |offers| > 0 {
      tail := ScanOffers(cfg, st.previousOfferPrices, offers, 0).events;
      ScanStaysInWalk(cfg, st.previousOfferPrices, offers, 0);
      ScanNeverRepeats(cfg, st.previousOfferPrices, offers, 0);
    }
    assert forall e | e in found :: e.OffersFound? && !WithinWalk(e, 0, |offers|);
    ConcatNeverRepeats(found, tail);
    assert WalkPart(cfg, st, offers) == found + tail;
  }

  /** A page that goes on to the other offers logs the featured step's
      events, then the offer count and the walk. */
  lemma WalkedPageEvents(cfg: Config, st: MonitorState, r: MainReading, offers: seq<SeenOffer>, stop: StopPoint)
    requires ProcessMain(cfg, st, r).completed && stop != AfterMain
    ensures ProcessPage(cfg, st, r, offers, stop).events == ProcessMain(cfg, st, r).events + WalkPart(cfg, st, offers)
  {
    if |offers| > 0 {
      NonEmptyWalkEvents(cfg, st, r, offers, stop);
    }
  }

  /** The same, for a page with at least one other offer. */
  lemma NonEmptyWalkEvents(cfg: Config, st: MonitorState, r: MainReading, offers: seq<SeenOffer>, stop: StopPoint)
    requires ProcessMain(cfg, st, r).completed && stop != AfterMain && |offers| > 0
    ensures ProcessPage(cfg, st, r, offers, stop).events == ProcessMain(cfg, st, r).events + WalkPart(cfg, st, offers)
  {
    var m := ProcessMain(cfg, st, r).events;
    var found := if |offers| != |st.previousOfferPrices| then [OffersFound(|offers|)] else [];
    var s := ScanOffers(cfg, st.previousOfferPrices, offers, 0).events;
    assert m + found + s == m + (found + s);
  }

  /** A page's events are the featured step's, followed, when the page goes
      on to the other offers, by the offer count and the walk. */
  lemma PageEvents(cfg: Config, st: MonitorState, r: MainReading, offers: seq<SeenOffer>, stop: StopPoint)
    ensures ProcessPage(cfg, st, r, offers, stop).events
      == ProcessMain(cfg, st, r).events
         + (if ProcessMain(cfg, st, r).completed && stop != AfterMain then WalkPart(cfg, st, offers) else [])
  {
    if ProcessMain(cfg, st, r).completed && stop != AfterMain {
      WalkedPageEvents(cfg, st, r, offers, stop);
    } else {
      assert ProcessMain(cfg, st, r).events + [] == ProcessMain(cfg, st, r).events;
    }
  }

  /** A page's events are the featured step's, followed by the offer count
      and the walk's, which never repeat. */
  lemma PageSplits(cfg: Config, st: MonitorState, r: MainReading, offers: seq<SeenOffer>, stop: StopPoint)
    returns (rest: seq<Event>)
    ensures ProcessPage(cfg, st, r, offers, stop).events == ProcessMain(cfg, st, r).events + rest
    ensures forall e | e in rest :: e.OffersFound? || WithinWalk(e, 0, |offers|)
    ensures forall e | e in rest :: multiset(rest)[e] == 1
  {
    PageEvents(cfg, st, r, offers, stop);
    if ProcessMain(cfg, st, r).completed && stop != AfterMain {
      rest := WalkPart(cfg, st, offers);
      WalkPartNeverRepeats(cfg, st, offers);
    } else {
      rest := [];
    }
  }

  /** The featured step's events and those after it have none in common. */
  lemma MainApartFromWalk(m: seq<Event>, rest: seq<Event>, n: nat)
    requires forall e | e in m :: AboutMain(e) || e == CycleFailed
    requires forall e | e in rest :: e.OffersFound? || WithinWalk(e, 0, n)
    ensures forall e | e in m :: e !in rest
  {
  }

  /** Whatever a cycle does about the featured offer, the featured step did,
      as many times: the steps after it never log, notify, cart or buy the
      featured offer. */
  lemma OnlyMainStepActsOnMain(cfg: Config, st: MonitorState, r: MainReading, offers: seq<SeenOffer>, stop: StopPoint)
    ensures forall e | AboutMain(e) ::
      multiset(ProcessPage(cfg, st, r, offers, stop).events)[e] == multiset(ProcessMain(cfg, st, r).events)[e]
  {
    var rest := PageSplits(cfg, st, r, offers, stop);
    forall e | AboutMain(e)
      ensures multiset(ProcessMain(cfg, st, r).events + rest)[e] == multiset(ProcessMain(cfg, st, r).events)[e]
    {
      assert e !in rest;
    }
  }

  /** No event of a page happens twice: in particular the featured offer
      and every other offer are bought or added to the cart at most once. */
  lemma PageNeverRepeats(cfg: Config, st: MonitorState, r: MainReading, offers: seq<SeenOffer>, stop: StopPoint)
    ensures forall e | e in ProcessPage(cfg, st, r, offers, stop).events ::
      multiset(ProcessPage(cfg, st, r, offers, stop).events)[e] == 1
  {
    var m := ProcessMain(cfg, st, r).events;
    var rest := PageSplits(cfg, st, r, offers, stop);
    MainActsOnce(cfg, st, r);
    assert forall e | e in m :: AboutMain(e) || e == CycleFailed;
    MainApartFromWalk(m, rest, |offers|);
    ConcatNeverRepeats(m, rest);
  }

  /** Processing the same page twice logs nothing about the featured offer
      the second time: the first pass stored its price. */
  lemma RepeatedPageIsQuiet(cfg: Config, st: MonitorState, r: MainReading, offers: seq<SeenOffer>, stop: StopPoint)
    requires ProcessMain(cfg, st, r).completed
    ensures !Logged(ProcessPage(cfg, ProcessPage(cfg, st, r, offers, stop).state, r, offers, stop).events, Main)
  {
    var st1 := ProcessPage(cfg, st, r, offers, stop).state;
    PageRemembersMainPrice(cfg, st, r, offers, stop);
    MainLogIsGated(cfg, st1, r);
    OnlyMainStepLogsMain(cfg, st1, r, offers, stop);
  }

  /** A reading without a price never leads to notifying, carting or buying
      the featured offer. */
  lemma NoPriceTakesNothing(cfg: Config, st: MonitorState, r: MainReading, offers: seq<SeenOffer>, stop: StopPoint)
    requires r.price == NoPrice
    ensures forall e | e in ProcessPage(cfg, st, r, offers, stop).events ::
      e != AddedToCart(Main) && e != Bought(Main) && !(e.Notified? && e.slot == Main)
  {
    var m := ProcessMain(cfg, st, r);
    assert forall e | e in m.events :: e.Classified?;
    ScanActsOnlyOnOthers(cfg, st.previousOfferPrices, offers, 0);
  }

  /** "n other offers found" is reported exactly when the number of offers
      differs from the length of the previous list. With no offers the
      previous list is kept; otherwise it is replaced by the prices of the
      readable offers up to where the walk stops. */
  lemma PageRecordsOffers(cfg: Config, st: MonitorState, r: MainReading, offers: seq<SeenOffer>, stop: StopPoint, k: nat)
    requires ProcessMain(cfg, st, r).completed && stop != AfterMain
    requires StopsAt(cfg, offers, 0, k)
    ensures OffersFound(|offers|) in ProcessPage(cfg, st, r, offers, stop).events
        <==> |offers| != |st.previousOfferPrices|
    ensures |offers| == 0 ==> ProcessPage(cfg, st, r, offers, stop).state.previousOfferPrices == st.previousOfferPrices
    ensures |offers| > 0 ==> ProcessPage(cfg, st, r, offers, stop).state.previousOfferPrices == ParsedPrices(offers[..k])
  {
    var m := ProcessMain(cfg, st, r);
    assert forall e | e in m.events :: !e.OffersFound?;
    ScanRecordsParsedPrices(cfg, st.previousOfferPrices, offers, 0, k);
    assert offers[0..k] == offers[..k];
  }

  /** The stop flag seen after the featured step ends the monitor with
      that step's effects alone; seen after a non-empty walk it ends the
      monitor; never seen, the monitor goes on. Where it is seen after the
      featured step changes nothing but whether the monitor goes on. */
  lemma PageHonoursStop(cfg: Config, st: MonitorState, r: MainReading, offers: seq<SeenOffer>, stop: StopPoint)
    ensures ProcessMain(cfg, st, r).completed && stop == AfterMain ==>
      ProcessPage(cfg, st, r, offers, stop)
        == Outcome(st.(previousMainPrice := r.price), ProcessMain(cfg, st, r).events, false)
    ensures ProcessMain(cfg, st, r).completed && stop == AfterOffers && |offers| > 0 ==>
      !ProcessPage(cfg, st, r, offers, stop).running
    ensures stop == NotRequested ==> ProcessPage(cfg, st, r, offers, stop).running
    ensures stop != AfterMain ==>
      && ProcessPage(cfg, st, r, offers, stop).state == ProcessPage(cfg, st, r, offers, NotRequested).state
      && ProcessPage(cfg, st, r, offers, stop).events == ProcessPage(cfg, st, r, offers, NotRequested).events
  {
  }

  /** A fresh monitor logs its featured offer on the first cycle unless the
      price read is exactly the initial 0.0. */
  lemma FirstPageLogsMain(cfg: Config, r: MainReading, offers: seq<SeenOffer>, stop: StopPoint)
    ensures Logged(ProcessPage(cfg, Initial, r, offers, stop).events, Main) <==> r.price != 0.0
  {
    var m := ProcessMain(cfg, Initial, r);
    MainLogIsGated(cfg, Initial, r);
    OnlyMainStepLogsMain(cfg, Initial, r, offers, stop);
    var es := ProcessPage(cfg, Initial, r, offers, stop).events;
    if r.price != 0.0 {
      assert m.events <= es;
      var k :| 0 <= k < |m.events| && m.events[k].Classified? && m.events[k].slot == Main;
      assert es[k] == m.events[k];
    }
  }

  // ---------------------------------------------------------------------------
  // The cycle as a whole.

  /** A cycle reaches the featured-offer step when it is not stopped before
      and the page loaded. */
  predicate ReachesMain(obs: Observation) {
    obs.stop != AtLoopTop && obs.page.Some? && obs.stop != AfterScrape
  }

  /** A cycle stopped at the top of the loop, or right after reading the page,
      does nothing and ends the monitor. */
  lemma EarlyStopDoesNothing(cfg: Config, st: MonitorState, obs: Observation)
    requires obs.stop == AtLoopTop || (obs.page.Some? && obs.stop == AfterScrape)
    ensures Cycle(cfg, st, obs) == Outcome(st, [], false)
  {
  }

  /** A cycle whose page failed to load reports the failure, changes nothing
      and loops again. */
  lemma FailedLoadChangesNothing(cfg: Config, st: MonitorState, obs: Observation)
    requires obs.stop != AtLoopTop && obs.page.None?
    ensures Cycle(cfg, st, obs) == Outcome(st, [CycleFailed], true)
  {
  }

  /** Repeating a cycle on the same page logs nothing about the featured
      offer, provided the first one got through the featured step. */
  lemma RepeatedCycleIsQuiet(cfg: Config, st: MonitorState, obs: Observation)
    requires ReachesMain(obs)
    requires ProcessMain(cfg, st, ScrapeMain(obs.page.value)).completed
    ensures !Logged(Cycle(cfg, Cycle(cfg, st, obs).state, obs).events, Main)
  {
    RepeatedPageIsQuiet(cfg, st, ScrapeMain(obs.page.value), SeeOffers(obs.page.value.offers), obs.stop);
  }

  /** Whatever a cycle does about the featured offer, the featured step on
      its page did, as many times; a cycle that does not reach that step
      does nothing about the featured offer. */
  lemma CycleActsOnMainAsMainStep(cfg: Config, st: MonitorState, obs: Observation)
    ensures forall e | AboutMain(e) ::
      multiset(Cycle(cfg, st, obs).events)[e]
        == if ReachesMain(obs) then multiset(ProcessMain(cfg, st, ScrapeMain(obs.page.value)).events)[e] else 0
  {
    if ReachesMain(obs) {
      OnlyMainStepActsOnMain(cfg, st, ScrapeMain(obs.page.value), SeeOffers(obs.page.value.offers), obs.stop);
    }
  }

  /** A cycle messages, carts or buys the featured offer only when the
      featured offer of its page is accepted, and no event of a cycle happens
      twice: nothing is bought or added to the cart twice in one cycle. */
  lemma CycleTakesMainOnlyWhenAccepted(cfg: Config, st: MonitorState, obs: Observation)
    ensures forall e | e in Cycle(cfg, st, obs).events && AboutMain(e) && !e.Classified? ::
      && ReachesMain(obs)
      && ClassifyMain(cfg, ScrapeMain(obs.page.value).price, ScrapeMain(obs.page.value).state) == Accepted
    ensures forall e | e in Cycle(cfg, st, obs).events :: multiset(Cycle(cfg, st, obs).events)[e] == 1
  {
    CycleActsOnMainAsMainStep(cfg, st, obs);
    if ReachesMain(obs) {
      var r := ScrapeMain(obs.page.value);
      MainActsOnce(cfg, st, r);
      PageNeverRepeats(cfg, st, r, SeeOffers(obs.page.value.offers), obs.stop);
      forall e | e in Cycle(cfg, st, obs).events && AboutMain(e) && !e.Classified?
        ensures ClassifyMain(cfg, r.price, r.state) == Accepted
      {
        assert e in multiset(Cycle(cfg, st, obs).events);
        assert e in ProcessMain(cfg, st, r).events;
      }
    }
  }

  /** An unavailable page never leads to notifying, carting or buying the
      featured offer. */
  lemma UnavailablePageTakesNothing(cfg: Config, st: MonitorState, obs: Observation)
    requires obs.page.Some? && obs.page.value.unavailable
    ensures forall e | e in Cycle(cfg, st, obs).events ::
      e != AddedToCart(Main) && e != Bought(Main) && !(e.Notified? && e.slot == Main)
  {
    if ReachesMain(obs) {
      NoPriceTakesNothing(cfg, st, ScrapeMain(obs.page.value), SeeOffers(obs.page.value.offers), obs.stop);
    }
  }

  /** A page on which no locator finds the featured block, or whose block
      shows no readable price, keeps the "no price" default, so the cycle
      never messages, carts or buys the featured offer. */
  lemma UnreadFeaturedPriceTakesNothing(cfg: Config, st: MonitorState, obs: Observation)
    requires obs.page.Some? && !obs.page.value.unavailable
    requires || FindFirst(MainOfferLocators, obs.page.value.mainAt).None?
             || (var b := FindFirst(MainOfferLocators, obs.page.value.mainAt).value.element;
                 ReadPrice(b.priceWhole, b.priceFraction).None?)
    ensures ScrapeMain(obs.page.value).price == NoPrice
    ensures forall e | e in Cycle(cfg, st, obs).events ::
      e != AddedToCart(Main) && e != Bought(Main) && !(e.Notified? && e.slot == Main)
  {
    if ReachesMain(obs) {
      NoPriceTakesNothing(cfg, st, ScrapeMain(obs.page.value), SeeOffers(obs.page.value.offers), obs.stop);
    }
  }

  /** A headed offer whose price cannot be read only reports the failure: it
      is not classified, messaged, carted or bought, records no price for the
      next cycle and does not stop the walk. */
  lemma UnpricedOfferRecordsNothing(cfg: Config, prev: seq<real>, b: OfferBlock, i: nat)
    requires b.heading.Some? && ReadPrice(b.priceWhole, b.priceFraction).None?
    ensures VisitOffer(cfg, prev, SeenOffer(ReadOffer(b), b.cartOk), i) == Visit([OfferFailed(i)], [], false)
  {
  }
}

=== FILE: locate.dfy ===
/** Finding elements on a page by trying a list of locators in turn. The page
    is abstracted as a lookup from a locator (an XPath expression) to what it
    resolves to, if anything. */
module Locate {
  import opened Options
  import opened Prices

  /** A successful lookup: the element, the locator that found it and that
      locator's position in the list. */
  datatype Hit<E> = Hit(element: E, locator: string, position: nat)

  /** The hit `h` is the answer of the first locator of `locators` that
      resolves under `lookup`. */
  predicate IsFirstHit<E(==)>(locators: seq<string>, lookup: string -> Option<E>, h: Hit<E>) {
    && h.position < |locators|
    && locators[h.position] == h.locator
    && lookup(h.locator) == Some(h.element)
    && forall j | 0 <= j < h.position :: lookup(locators[j]).None?
  }

  /** The search from position `from` on. */
  function FindFrom<E(==)>(locators: seq<string>, lookup: string -> Option<E>, from: nat): (r: Option<Hit<E>>)
    requires from <= |locators|
    ensures r.Some? ==> from <= r.value.position && r.value.position < |locators|
    ensures r.Some? ==> locators[r.value.position] == r.value.locator && lookup(r.value.locator) == Some(r.value.element)
    ensures r.Some? ==> forall j | from <= j < r.value.position :: lookup(locators[j]).None?
    ensures r.None? <==> forall j | from <= j < |locators| :: lookup(locators[j]).None?
    decreases |locators| - from
  {
    if from == |locators| then None
    else match lookup(locators[from])
      case Some(e) => Some(Hit(e, locators[from], from))
      case None => FindFrom(locators, lookup, from + 1)
  }

  /** Tries the locators in order and returns the first element found with
      the locator that found it; `None` is the "could not find" exception. */
  function FindFirst<E(==)>(locators: seq<string>, lookup: string -> Option<E>): (r: Option<Hit<E>>)
    ensures r.Some? ==> IsFirstHit(locators, lookup, r.value)
    ensures r.None? <==> forall j | 0 <= j < |locators| :: lookup(locators[j]).None?
  {
    FindFrom(locators, lookup, 0)
  }

  /** Any first hit is the hit `FindFirst` returns: the answer does not
      depend on anything but the order of the locators. */
  lemma FirstHitIsUnique<E>(locators: seq<string>, lookup: string -> Option<E>, h: Hit<E>)
    requires IsFirstHit(locators, lookup, h)
    ensures FindFirst(locators, lookup) == Some(h)
  {
    var r := FindFirst(locators, lookup);
    assert r.Some?;
  }

  /** Locators that resolve to nothing can be dropped from the front of the
      list without changing the answer, except for the reported position. */
  lemma SkipsMisses<E>(locators: seq<string>, lookup: string -> Option<E>, n: nat)
    requires n <= |locators|
    requires forall j | 0 <= j < n :: lookup(locators[j]).None?
    ensures FindFirst(locators, lookup).None? <==> FindFirst(locators[n..], lookup).None?
    ensures FindFirst(locators, lookup).Some? ==>
      var h := FindFirst(locators, lookup).value;
      FindFirst(locators[n..], lookup) == Some(Hit(h.element, h.locator, h.position - n))
  {
    var r := FindFirst(locators, lookup);
    var t := locators[n..];
    if r.Some? {
      var h := r.value;
      assert forall j | 0 <= j < h.position - n :: t[j] == locators[j + n];
      FirstHitIsUnique(t, lookup, Hit(h.element, h.locator, h.position - n));
    } else {
      assert forall j | 0 <= j < |t| :: t[j] == locators[j + n];
    }
  }

  // ---------------------------------------------------------------------------
  // The item count.

  /** The places the product page may state its number of items, in the order
      they are tried. */
  const ItemCountLocators: seq<string> := [
    "//tr[contains(@class, 'po-number_of_items')]/td[2]/span",
    "//div[contains(@data-feature-name, 'metaData') and .//span[contains(text(), 'Numero di articoli')]]//span[@class='a-size-base a-color-tertiary']",
    "//div[contains(@data-feature-name, 'metaData') and .//span[contains(text(), 'Number of Items')]]//span[@class='a-size-base a-color-tertiary']",
    "//div[@id='detailBullets_feature_div']//span[contains(text(), 'Numero di articoli')]/following-sibling::span",
    "//div[@id='detailBullets_feature_div']//span[contains(text(), 'Number of Items')]/following-sibling::span"
  ]

  /** What one locator contributes to the item count: the integer its element's
      text parses to; a missing element and a `ValueError` both give nothing. */
  function CountAt(text: string -> Option<string>): string -> Option<int> {
    (loc: string) => if text(loc).Some? then ParseInt(text(loc).value) else None
  }

  /** The item count: the first locator whose element exists and whose text is
      an integer wins; with none, the count stays at its default of 1.
      `text` maps a locator to the text of the element it finds. */
  function ItemCount(text: string -> Option<string>): (n: int)
    ensures n == 1 || exists j | 0 <= j < |ItemCountLocators| :: CountAt(text)(ItemCountLocators[j]) == Some(n)
    ensures (forall j | 0 <= j < |ItemCountLocators| :: CountAt(text)(ItemCountLocators[j]).None?) ==> n == 1
  {
    match FindFirst(ItemCountLocators, CountAt(text))
    case Some(h) => h.element
    case None => 1
  }

  /** The first locator with a parseable count decides the item count, even
      when later locators would give another number. */
  lemma ItemCountIsFirstParse(text: string -> Option<string>, j: nat, n: int)
    requires j < |ItemCountLocators|
    requires CountAt(text)(ItemCountLocators[j]) == Some(n)
    requires forall k | 0 <= k < j :: CountAt(text)(ItemCountLocators[k]).None?
    ensures ItemCount(text) == n
  {
    FirstHitIsUnique(ItemCountLocators, CountAt(text), Hit(n, ItemCountLocators[j], j));
  }
}

=== FILE: options.dfy ===
/** The optional value used wherever the monitor reads something from the page
    that may be missing (an element a locator did not resolve, a number that did
    not parse). */
module Options {

  datatype Option<+T> = None | Some(value: T) {

    /** The wrapped value, or `default` when absent. */
    function GetOr(default: T): T {
      match this
      case Some(v) => v
      case None => default
    }
  }
}

=== FILE: prices.dfy ===
/** Number parsing as the monitor does it: Python's `float()` and `int()` on
    page text, and the price assembled from the page's "whole" and "fraction"
    fragments. Prices are exact rationals (`real`), not binary floats. */
module Prices {
  import opened Options
  import opened Text

  predicate IsDigit(c: char) {
    '0' <= c <= '9'
  }

  predicate AllDigits(s: string) {
    forall i | 0 <= i < |s| :: IsDigit(s[i])
  }

  /** The value of a decimal digit string, most significant digit first. */
  function DigitsValue(s: string): nat
    requires AllDigits(s)
  {
    if s == [] then 0 else DigitsValue(s[..|s| - 1]) * 10 + (s[|s| - 1] as int - '0' as int)
  }

  /** `s.replace('.', '').replace(',', '')`: the whole-part text without its
      thousands separators. */
  function StripSeparators(s: string): (r: string)
    ensures forall i | 0 <= i < |r| :: r[i] != '.' && r[i] != ','
  {
    if s == [] then []
    else (if s[0] == '.' || s[0] == ',' then [] else [s[0]]) + StripSeparators(s[1..])
  }

  /** The position of the first '.' in `s`, if any. */
  function IndexOfDot(s: string): (r: Option<nat>)
    ensures r.Some? ==> r.value < |s| && s[r.value] == '.'
    ensures r.Some? ==> forall j | 0 <= j < r.value :: s[j] != '.'
    ensures r.None? ==> forall j | 0 <= j < |s| :: s[j] != '.'
  {
    if s == [] then None
    else if s[0] == '.' then Some(0)
    else match IndexOfDot(s[1..])
      case Some(d) => Some(d + 1)
      case None => None
  }

  /** The value of the fraction digits `fp` read after a decimal point:
      `0.fp`, one digit at a time from the left. */
  function FractionValue(fp: string): real
    requires AllDigits(fp)
  {
    if fp == [] then 0.0 else ((fp[0] as int - '0' as int) as real + FractionValue(fp[1..])) / 10.0
  }

  /** The value of the decimal `ip.fp`. */
  function DecimalValue(ip: string, fp: string): real
    requires AllDigits(ip) && AllDigits(fp)
  {
    DigitsValue(ip) as real + FractionValue(fp)
  }

  /** An unsigned decimal as `float()` reads it: digits, optionally a single
      '.' followed by more digits, with at least one digit in all. */
  function ParseUnsigned(s: string): Option<real> {
    match IndexOfDot(s)
    case None =>
      if |s| > 0 && AllDigits(s) then Some(DigitsValue(s) as real) else None
    case Some(d) =>
      var ip, fp := s[..d], s[d + 1..];
      if AllDigits(ip) && AllDigits(fp) && |ip| + |fp| > 0
      then Some(DecimalValue(ip, fp))
      else None
  }

  /** Python's `float(text)` on plain decimal text: surrounding whitespace is
      ignored and an optional sign is allowed. `None` is the `ValueError`;
      blank text, a bare sign or a bare point is one. */
  function ParseFloat(text: string): (r: Option<real>)
    ensures r.Some? ==> exists i | 0 <= i < |text| :: IsDigit(text[i])
  {
    var s := Strip(text);
    if |s| > 0 && (s[0] == '-' || s[0] == '+') then
      match ParseUnsigned(s[1..])
      case Some(v) => UnsignedDigitInText(text, 1); Some(if s[0] == '-' then -v else v)
      case None => None
    else
      match ParseUnsigned(s)
      case Some(v) => UnsignedDigitInText(text, 0); Some(v)
      case None => None
  }

  /** The price shown by a price block: the whole part loses its '.' and ','
      separators and is joined to the fraction part with a decimal point when
      a fraction element exists; without one the whole part alone is parsed,
      and having lost its points it can only read as a whole number. */
  function PriceOf(whole: string, fraction: Option<string>): (r: Option<real>)
    ensures fraction.None? && r.Some? ==> r.value == r.value.Floor as real
  {
    var w := StripSeparators(whole);
    match fraction
    case Some(f) => ParseFloat(w + "." + f)
    case None => NoPointReadsWhole(w); ParseFloat(w)
  }

  /** Python's `int(text)` on plain decimal text: surrounding whitespace is
      ignored and an optional sign is allowed. `None` is the `ValueError`;
      blank text or a bare sign is one. */
  function ParseInt(text: string): (r: Option<int>)
    ensures r.Some? ==> exists i | 0 <= i < |text| :: IsDigit(text[i])
  {
    var s := Strip(text);
    if |s| > 0 && (s[0] == '-' || s[0] == '+') then
      var body := s[1..];
      if |body| > 0 && AllDigits(body)
      then DigitInText(text, 1); Some(if s[0] == '-' then -(DigitsValue(body) as int) else DigitsValue(body))
      else None
    else if |s| > 0 && AllDigits(s) then DigitInText(text, 0); Some(DigitsValue(s))
    else None
  }

  /** A digit of the stripped text is a digit of the text. */
  lemma DigitInText(text: string, j: nat)
    requires j < |Strip(text)| && IsDigit(Strip(text)[j])
    ensures exists i | 0 <= i < |text| :: IsDigit(text[i])
  {
    StripDropsSpace(text);
    var a := |text| - |TrimStart(text)|;
    assert text[a + j] == Strip(text)[j];
  }

  /** Whatever `float()` accepts as an unsigned decimal after position
      `from` of the stripped text holds a digit of the text. */
  lemma UnsignedDigitInText(text: string, from: nat)
    requires from <= |Strip(text)| && ParseUnsigned(Strip(text)[from..]).Some?
    ensures exists i | 0 <= i < |text| :: IsDigit(text[i])
  {
    var s := Strip(text);
    ParseUnsignedNeedsDigit(s[from..]);
    var k :| 0 <= k < |s[from..]| && IsDigit(s[from..][k]);
    DigitInText(text, from + k);
  }

  lemma UnsignedNoPointIsWhole(s: string)
    requires forall i | 0 <= i < |s| :: s[i] != '.'
    ensures ParseUnsigned(s).Some? ==> ParseUnsigned(s).value == (DigitsValue(s) as real)
  {
    assert IndexOfDot(s).None?;
  }

  /** Text without a decimal point that `float()` accepts reads as a whole
      number. */
  lemma NoPointReadsWhole(text: string)
    requires forall i | 0 <= i < |text| :: text[i] != '.'
    ensures ParseFloat(text).Some? ==> ParseFloat(text).value == ParseFloat(text).value.Floor as real
  {
    var s := Strip(text);
    StripDropsSpace(text);
    var a := |text| - |TrimStart(text)|;
    assert forall i | 0 <= i < |s| :: s[i] == text[a + i];
    if ParseFloat(text).Some? {
      var n: int;
      if |s| > 0 && (s[0] == '-' || s[0] == '+') {
        var t := s[1..];
        assert forall i | 0 <= i < |t| :: t[i] == s[i + 1];
        UnsignedNoPointIsWhole(t);
        n := if s[0] == '-' then -(DigitsValue(t) as int) else DigitsValue(t);
      } else {
        UnsignedNoPointIsWhole(s);
        n := DigitsValue(s);
      }
      assert ParseFloat(text).value == n as real;
    }
  }

  // ---------------------------------------------------------------------------
  // Rendering, the inverse direction: how a price or a count appears on a page.

  function DigitChar(d: nat): (c: char)
    requires d < 10
    ensures IsDigit(c)
  {
    ('0' as int + d) as char
  }

  /** The decimal digits of `n`, without leading zeros. */
  function ShowNat(n: nat): (s: string)
    ensures |s| > 0 && AllDigits(s)
  {
    if n < 10 then [DigitChar(n)] else ShowNat(n / 10) + [DigitChar(n % 10)]
  }

  /** `n` as `int()` would print it. */
  function ShowInt(n: int): string {
    if n < 0 then "-" + ShowNat(-n) else ShowNat(n)
  }

  /** The two cent digits of a price. */
  function TwoDigits(n: nat): (s: string)
    requires n < 100
    ensures |s| == 2 && AllDigits(s)
  {
    [DigitChar(n / 10), DigitChar(n % 10)]
  }

  /** Digits grouped in threes from the right with '.', as the Italian store
      renders a whole part ("1.234"). */
  function Group(d: string): string
    decreases |d|
  {
    if |d| <= 3 then d else Group(d[..|d| - 3]) + "." + d[|d| - 3..]
  }

  lemma {:induction false} DigitsValueOfShowNat(n: nat)
    ensures DigitsValue(ShowNat(n)) == n
  {
    if n >= 10 {
      var s := ShowNat(n);
      assert s[..|s| - 1] == ShowNat(n / 10);
      DigitsValueOfShowNat(n / 10);
    }
  }

  lemma {:induction false} StripSeparatorsAppend(a: string, b: string)
    ensures StripSeparators(a + b) == StripSeparators(a) + StripSeparators(b)
  {
    if a == [] {
      assert a + b == b;
    } else {
      assert (a + b)[1..] == a[1..] + b;
      StripSeparatorsAppend(a[1..], b);
    }
  }

  lemma {:induction false} StripSeparatorsOfDigits(d: string)
    requires AllDigits(d)
    ensures StripSeparators(d) == d
  {
    if d != [] {
      StripSeparatorsOfDigits(d[1..]);
    }
  }

  /** Removing the separators undoes the grouping. */
  lemma {:induction false} StripSeparatorsOfGroup(d: string)
    requires AllDigits(d)
    ensures StripSeparators(Group(d)) == d
    decreases |d|
  {
    if |d| <= 3 {
      StripSeparatorsOfDigits(d);
    } else {
      var hi, lo := d[..|d| - 3], d[|d| - 3..];
      StripSeparatorsOfGroup(hi);
      StripSeparatorsAppend(Group(hi) + ".", lo);
      StripSeparatorsAppend(Group(hi), ".");
      StripSeparatorsOfDigits(lo);
      assert StripSeparators(".") == [];
      assert hi + lo == d;
    }
  }

  lemma DigitIsNotSpace(c: char)
    requires IsDigit(c)
    ensures !IsSpace(c)
  {
  }

  lemma DigitsValueTwoDigits(n: nat)
    requires n < 100
    ensures DigitsValue(TwoDigits(n)) == n
  {
    var s := TwoDigits(n);
    var hi, lo := n / 10, n % 10;
    assert s[..1] == [DigitChar(hi)];
    assert DigitsValue(s[..1]) == hi by {
      assert [DigitChar(hi)][..0] == [];
    }
    assert DigitsValue(s) == hi * 10 + lo;
  }

  /** Text that starts with a digit and ends with a digit is read by `float()`
      as an unsigned decimal. */
  lemma ParseFloatUnsigned(s: string)
    requires |s| > 0 && IsDigit(s[0]) && IsDigit(s[|s| - 1])
    ensures ParseFloat(s) == ParseUnsigned(s)
  {
    DigitIsNotSpace(s[0]);
    DigitIsNotSpace(s[|s| - 1]);
    NoSpaceTrims(s);
  }

  lemma {:induction false} IndexOfDotAfterDigits(w: string, rest: string)
    requires AllDigits(w)
    ensures IndexOfDot(w + "." + rest) == Some(|w|)
  {
    if w != [] {
      assert (w + "." + rest)[1..] == w[1..] + "." + rest;
      IndexOfDotAfterDigits(w[1..], rest);
    }
  }

  lemma ParseUnsignedOfDecimal(w: string, f: string)
    requires AllDigits(w) && AllDigits(f) && |w| + |f| > 0
    ensures ParseUnsigned(w + "." + f)
         == Some(DecimalValue(w, f))
  {
    var s := w + "." + f;
    IndexOfDotAfterDigits(w, f);
    var ip, fp := s[..|w|], s[|w| + 1..];
    assert ip == w;
    assert fp == f;
  }

  /** `float()` of digits, a point and digits. */
  lemma ParseFloatOfDecimal(w: string, f: string)
    requires |w| > 0 && AllDigits(w) && |f| > 0 && AllDigits(f)
    ensures ParseFloat(w + "." + f)
         == Some(DecimalValue(w, f))
  {
    var s := w + "." + f;
    assert s[0] == w[0] && s[|s| - 1] == f[|f| - 1];
    ParseFloatUnsigned(s);
    ParseUnsignedOfDecimal(w, f);
  }

  /** `float()` of a plain digit string. */
  lemma ParseFloatOfDigits(w: string)
    requires |w| > 0 && AllDigits(w)
    ensures ParseFloat(w) == Some(DigitsValue(w) as real)
  {
    ParseFloatUnsigned(w);
  }

  lemma DecimalOfParts(whole: nat, c: nat)
    requires c < 100
    ensures DecimalValue(ShowNat(whole), TwoDigits(c)) == whole as real + c as real / 100.0
  {
    DigitsValueOfShowNat(whole);
    var f := TwoDigits(c);
    assert f[1..][1..] == [];
    assert FractionValue(f[1..]) == (c % 10) as real / 10.0;
  }

  /** Whole-and-fraction round trip: a price of `whole` euros and `c` cents
      rendered the way the store shows it (grouped whole part, two fraction
      digits) is read back exactly. */
  lemma PriceRoundTrip(whole: nat, c: nat)
    requires c < 100
    ensures PriceOf(Group(ShowNat(whole)), Some(TwoDigits(c))) == Some(whole as real + c as real / 100.0)
  {
    var w, f := ShowNat(whole), TwoDigits(c);
    StripSeparatorsOfGroup(w);
    PriceOfDecimal(Group(w), w, f);
    DecimalOfParts(whole, c);
  }

  lemma PriceOfDecimal(g: string, w: string, f: string)
    requires |w| > 0 && AllDigits(w) && |f| > 0 && AllDigits(f)
    requires StripSeparators(g) == w
    ensures PriceOf(g, Some(f)) == Some(DecimalValue(w, f))
  {
    ParseFloatOfDecimal(w, f);
  }

  /** Whole-only round trip: without a fraction element the grouped whole
      part is read back as the integer it shows. */
  lemma WholePriceRoundTrip(n: nat)
    ensures PriceOf(Group(ShowNat(n)), None) == Some(n as real)
  {
    var w := ShowNat(n);
    StripSeparatorsOfGroup(w);
    ParseFloatOfDigits(w);
    DigitsValueOfShowNat(n);
  }

  /** `int()` reads back every integer it prints. */
  lemma ParseIntRoundTrip(n: int)
    ensures ParseInt(ShowInt(n)) == Some(n)
  {
    var s := ShowInt(n);
    if n < 0 {
      var d := ShowNat(-n);
      assert s[1..] == d;
      assert s[|s| - 1] == d[|d| - 1];
      NoSpaceTrims(s);
      DigitsValueOfShowNat(-n);
    } else {
      NoSpaceTrims(s);
      DigitsValueOfShowNat(n);
    }
  }

  /** The store's "1.234" and "56" fragments read as 1234.56. */
  lemma ItalianPriceExample()
    ensures PriceOf("1.234", Some("56")) == Some(1234.56)
  {
    assert ShowNat(1234) == "1234";
    assert Group("1234") == "1.234";
    assert TwoDigits(56) == "56";
    PriceRoundTrip(1234, 56);
  }

  /** Whatever `float()` accepts as an unsigned decimal holds a digit. */
  lemma ParseUnsignedNeedsDigit(s: string)
    requires ParseUnsigned(s).Some?
    ensures exists i | 0 <= i < |s| :: IsDigit(s[i])
  {
    match IndexOfDot(s)
    case None =>
      assert IsDigit(s[0]);
    case Some(d) =>
      if d > 0 {
        assert s[..d][0] == s[0];
      } else {
        assert s[d + 1..][0] == s[d + 1];
      }
  }
}

=== FILE: registry.dfy ===
/** The set of running monitors, keyed by product code (ASIN), and the
    commands that change it: starting and stopping one monitor, reconciling
    the set with the product file, and deleting a product from that file.
    A running monitor is identified by a handle standing for its thread. */
module Registry {
  import opened Options
  import opened Text
  import opened Conditions
  import Engine

  /** A product as listed in the product file: its name (the table's key),
      its ASIN, its cut price, and the optional autocheckout flag and list
      of accepted states. */
  datatype ProductData = ProductData(
    name: string,
    asin: string,
    cutPrice: real,
    autocheckout: Option<bool>,
    objectState: Option<seq<string>>)

  /** A running monitor: the data it was started with and its thread. */
  datatype Monitor = Monitor(data: ProductData, handle: nat)

  /** The running monitors, and the handle the next thread will get. */
  datatype Registry = Registry(active: map<string, Monitor>, nextHandle: nat)

  /** Every monitor sits under its own product's ASIN, and its thread was
      created before the next one. */
  predicate Valid(reg: Registry) {
    forall a | a in reg.active :: reg.active[a].data.asin == a && reg.active[a].handle < reg.nextHandle
  }

  // ---------------------------------------------------------------------------
  // Starting and stopping one monitor.

  /** Starts a monitor for `p` under its ASIN; does nothing when one already
      runs under that ASIN, even if it was started with other data. */
  function Start(reg: Registry, p: ProductData): (r: Registry)
    ensures p.asin in reg.active ==> r == reg
    ensures p.asin !in reg.active ==>
      && r.active.Keys == reg.active.Keys + {p.asin}
      && r.active[p.asin] == Monitor(p, reg.nextHandle)
      && (forall a | a in reg.active :: r.active[a] == reg.active[a])
      && r.nextHandle == reg.nextHandle + 1
  {
    if p.asin in reg.active then reg
    else Registry(reg.active[p.asin := Monitor(p, reg.nextHandle)], reg.nextHandle + 1)
  }

  /** Stops the monitor under `asin` and forgets it; does nothing when none
      runs under it. */
  function Stop(reg: Registry, asin: string): (r: Registry)
    ensures r.active.Keys == reg.active.Keys - {asin}
    ensures forall a | a in r.active :: r.active[a] == reg.active[a]
    ensures r.nextHandle == reg.nextHandle
  {
    if asin !in reg.active then reg
    else Registry(reg.active - {asin}, reg.nextHandle)
  }

  /** Starting and stopping keep the registry well formed. */
  lemma StartStopKeepValid(reg: Registry, p: ProductData, asin: string)
    ensures Valid(reg) ==> Valid(Start(reg, p)) && Valid(Stop(reg, asin))
  {
  }

  /** Stopping a monitor that was just started restores the running set;
      only the handle counter remembers it. */
  lemma StopUndoesStart(reg: Registry, p: ProductData)
    requires p.asin !in reg.active
    ensures Stop(Start(reg, p), p.asin).active == reg.active
  {
  }

  /** Starting again the monitor that was just stopped brings back a monitor
      with the same data, on a new thread. */
  lemma StartUndoesStop(reg: Registry, asin: string)
    requires Valid(reg) && asin in reg.active
    ensures var r := Start(Stop(reg, asin), reg.active[asin].data);
      && r.active.Keys == reg.active.Keys
      && r.active[asin].data == reg.active[asin].data
      && r.active[asin].handle != reg.active[asin].handle
      && (forall a | a in reg.active && a != asin :: r.active[a] == reg.active[a])
  {
  }

  // ---------------------------------------------------------------------------
  // Reconciling with the product file.

  /** The products keyed by ASIN; of two products with the same ASIN the
      later one wins. */
  function ByAsin(ps: seq<ProductData>): (m: map<string, ProductData>)
    ensures forall a | a in m :: m[a].asin == a
    decreases |ps|
  {
    if ps == [] then map[]
    else ByAsin(ps[..|ps| - 1])[ps[|ps| - 1].asin := ps[|ps| - 1]]
  }

  /** The keys are exactly the listed ASINs. */
  lemma {:induction false} ByAsinKeys(ps: seq<ProductData>)
    ensures ByAsin(ps).Keys == set j | 0 <= j < |ps| :: ps[j].asin
    decreases |ps|
  {
    if ps != [] {
      var init := ps[..|ps| - 1];
      ByAsinKeys(init);
      assert forall j | 0 <= j < |init| :: init[j] == ps[j];
      assert (set j | 0 <= j < |ps| :: ps[j].asin) == (set j | 0 <= j < |init| :: init[j].asin) + {ps[|ps| - 1].asin};
    }
  }

  /** Each ASIN is bound to the last product listing it. */
  lemma {:induction false} ByAsinIsLastListing(ps: seq<ProductData>, a: string)
    requires a in ByAsin(ps)
    ensures exists j | 0 <= j < |ps| :: (ps[j] == ByAsin(ps)[a] && ps[j].asin == a &&
      forall k | j < k < |ps| :: ps[k].asin != a)
    decreases |ps|
  {
    var init, last := ps[..|ps| - 1], ps[|ps| - 1];
    if a == last.asin {
      assert ps[|ps| - 1] == ByAsin(ps)[a];
    } else {
      ByAsinIsLastListing(init, a);
      var j :| 0 <= j < |init| && init[j] == ByAsin(init)[a] && init[j].asin == a &&
        forall k | j < k < |init| :: init[k].asin != a;
      assert ps[j] == ByAsin(ps)[a];
      assert forall k | j < k < |ps| - 1 :: ps[k] == init[k];
    }
  }

  /** What reconciling `reg` with the products `m` must achieve: the keys are
      exactly the listed ASINs, each bound to its listed data; a monitor whose
      data did not change keeps running untouched; every other monitor is on
      a new thread; and the counts report the removed, added and changed
      ASINs. */
  predicate Reconciled(reg: Registry, m: map<string, ProductData>, r: Registry, removed: nat, added: nat, updated: nat) {
    && r.active.Keys == m.Keys
    && (forall a | a in r.active :: r.active[a].data == m[a])
    && (forall a | a in reg.active && a in m && reg.active[a].data == m[a] :: r.active[a] == reg.active[a])
    && (forall a | a in r.active && !(a in reg.active && reg.active[a].data == m[a]) ::
          reg.nextHandle <= r.active[a].handle < r.nextHandle)
    && reg.nextHandle <= r.nextHandle
    && removed == |reg.active.Keys - m.Keys|
    && added == |m.Keys - reg.active.Keys|
    && updated == |set a | a in reg.active && a in m && reg.active[a].data != m[a]|
  }

  /** Partway through the first phase: the monitors under `gone` that are
      not in `left` have been stopped, and nothing else changed. */
  predicate StoppedSoFar(reg: Registry, gone: set<string>, left: set<string>, r: Registry) {
    && left <= gone
    && r.active.Keys == (reg.active.Keys - gone) + left
    && (forall a | a in r.active :: a in reg.active && r.active[a] == reg.active[a])
    && r.nextHandle == reg.nextHandle
  }

  lemma StopStep(reg: Registry, gone: set<string>, left: set<string>, r: Registry, a: string)
    requires gone <= reg.active.Keys
    requires StoppedSoFar(reg, gone, left, r) && a in left
    ensures StoppedSoFar(reg, gone, left - {a}, Stop(r, a))
  {
  }

  /** The first phase of a reload: stop every monitor under `gone`. */
  method StopAll(reg: Registry, gone: set<string>) returns (r: Registry, count: nat)
    requires gone <= reg.active.Keys
    ensures StoppedSoFar(reg, gone, {}, r)
    ensures count == |gone|
  {
    r, count := reg, 0;
    var left := gone;
    while left != {}
      invariant StoppedSoFar(reg, gone, left, r)
      invariant count + |left| == |gone|
      decreases |left|
    {
      var a :| a in left;
      StopStep(reg, gone, left, r, a);
      r := Stop(r, a);
      left := left - {a};
      count := count + 1;
    }
  }

  /** Partway through the second phase: the ASINs of `newcomers` not in
      `pending` have been started with their listed data on new threads, and
      nothing else changed. */
  predicate StartedSoFar(reg: Registry, m: map<string, ProductData>, newcomers: set<string>, pending: set<string>, r: Registry)
    requires newcomers <= m.Keys
  {
    && pending <= newcomers
    && r.active.Keys == reg.active.Keys + (newcomers - pending)
    && (forall a | a in reg.active :: r.active[a] == reg.active[a])
    && (forall a | a in newcomers - pending ::
          r.active[a].data == m[a] && reg.nextHandle <= r.active[a].handle < r.nextHandle)
    && reg.nextHandle <= r.nextHandle
  }

  lemma StartStep(reg: Registry, m: map<string, ProductData>, newcomers: set<string>, pending: set<string>, r: Registry, a: string)
    requires newcomers <= m.Keys && newcomers !! reg.active.Keys
    requires forall b | b in newcomers :: m[b].asin == b
    requires StartedSoFar(reg, m, newcomers, pending, r) && a in pending
    ensures StartedSoFar(reg, m, newcomers, pending - {a}, Start(r, m[a]))
  {
  }

  /** The second phase: start a monitor for every ASIN of `newcomers`, with its
      listed data. */
  method StartAll(reg: Registry, m: map<string, ProductData>, newcomers: set<string>) returns (r: Registry, count: nat)
    requires newcomers <= m.Keys && newcomers !! reg.active.Keys
    requires forall a | a in newcomers :: m[a].asin == a
    ensures StartedSoFar(reg, m, newcomers, {}, r)
    ensures count == |newcomers|
  {
    r, count := reg, 0;
    var pending := newcomers;
    while pending != {}
      invariant StartedSoFar(reg, m, newcomers, pending, r)
      invariant count + |pending| == |newcomers|
      decreases |pending|
    {
      var a :| a in pending;
      StartStep(reg, m, newcomers, pending, r, a);
      r := Start(r, m[a]);
      pending := pending - {a};
      count := count + 1;
    }
  }

  /** Partway through the third phase: of the ASINs of `shared` not in
      `todo`, those whose data changed are in `changed` and were restarted
      with their listed data on new threads; every other monitor is as it
      was. */
  predicate RestartedSoFar(reg: Registry, m: map<string, ProductData>, shared: set<string>, todo: set<string>,
                           r: Registry, changed: set<string>)
    requires shared <= m.Keys && shared <= reg.active.Keys
  {
    && todo <= shared
    && r.active.Keys == reg.active.Keys
    && changed == (set a | a in shared - todo && reg.active[a].data != m[a])
    && (forall a | a in r.active && a !in changed :: r.active[a] == reg.active[a])
    && (forall a | a in changed :: r.active[a].data == m[a] && reg.nextHandle <= r.active[a].handle < r.nextHandle)
    && reg.nextHandle <= r.nextHandle
  }

  lemma RestartStep(reg: Registry, m: map<string, ProductData>, shared: set<string>, todo: set<string>,
                    r: Registry, changed: set<string>, a: string)
    requires shared <= m.Keys && shared <= reg.active.Keys
    requires forall b | b in shared :: m[b].asin == b
    requires RestartedSoFar(reg, m, shared, todo, r, changed) && a in todo
    ensures r.active[a].data != m[a] ==>
      RestartedSoFar(reg, m, shared, todo - {a}, Start(Stop(r, a), m[a]), changed + {a})
    ensures r.active[a].data == m[a] ==>
      RestartedSoFar(reg, m, shared, todo - {a}, r, changed)
  {
  }

  /** The third phase: restart, with its listed data, every monitor under
      `shared` whose data differs from the listed one. */
  method RestartChanged(reg: Registry, m: map<string, ProductData>, shared: set<string>)
    returns (r: Registry, changed: set<string>)
    requires shared <= m.Keys && shared <= reg.active.Keys
    requires forall a | a in shared :: m[a].asin == a
    ensures RestartedSoFar(reg, m, shared, {}, r, changed)
  {
    r, changed := reg, {};
    var todo := shared;
    while todo != {}
      invariant RestartedSoFar(reg, m, shared, todo, r, changed)
      decreases |todo|
    {
      var a :| a in todo;
      RestartStep(reg, m, shared, todo, r, changed, a);
      if r.active[a].data != m[a] {
        r := Start(Stop(r, a), m[a]);
        changed := changed + {a};
      }
      todo := todo - {a};
    }
  }

  /** The monitors the third phase finds changed are those whose data
      differed before the reload. */
  lemma ChangedBeforeReload(reg: Registry, m: map<string, ProductData>, r2: Registry, changed: set<string>)
    requires reg.active.Keys * m.Keys <= r2.active.Keys
    requires forall a | a in reg.active.Keys * m.Keys :: r2.active[a] == reg.active[a]
    requires changed == set a | a in reg.active.Keys * m.Keys - {} && r2.active[a].data != m[a]
    ensures changed == set a | a in reg.active && a in m && reg.active[a].data != m[a]
  {
  }

  /** After the first two phases every listed ASIN has a monitor: the shared
      ones as before the reload, the new ones with their listed data on new
      threads. */
  lemma FirstTwoPhases(reg: Registry, m: map<string, ProductData>, r1: Registry, r2: Registry)
    requires m.Keys - reg.active.Keys <= m.Keys
    requires StoppedSoFar(reg, reg.active.Keys - m.Keys, {}, r1)
    requires StartedSoFar(r1, m, m.Keys - reg.active.Keys, {}, r2)
    ensures r2.active.Keys == m.Keys
    ensures forall a | a in reg.active.Keys * m.Keys :: r2.active[a] == reg.active[a]
    ensures forall a | a in m.Keys - reg.active.Keys ::
      r2.active[a].data == m[a] && reg.nextHandle <= r2.active[a].handle < r2.nextHandle
    ensures reg.nextHandle <= r2.nextHandle
  {
    assert r1.active.Keys == reg.active.Keys * m.Keys;
  }

  /** The three phases together reconcile the registry with the products. */
  lemma PhasesReconcile(reg: Registry, m: map<string, ProductData>, r2: Registry, r: Registry,
                        removed: nat, added: nat, changed: set<string>)
    requires r2.active.Keys == m.Keys
    requires forall a | a in reg.active.Keys * m.Keys :: r2.active[a] == reg.active[a]
    requires forall a | a in m.Keys - reg.active.Keys ::
      r2.active[a].data == m[a] && reg.nextHandle <= r2.active[a].handle < r2.nextHandle
    requires reg.nextHandle <= r2.nextHandle
    requires removed == |reg.active.Keys - m.Keys| && added == |m.Keys - reg.active.Keys|
    requires RestartedSoFar(r2, m, reg.active.Keys * m.Keys, {}, r, changed)
    ensures Reconciled(reg, m, r, removed, added, |changed|)
  {
    ChangedBeforeReload(reg, m, r2, changed);
  }

  /** Reconciling with products that each sit under their own ASIN keeps
      the registry well formed. */
  lemma ReconciledIsValid(reg: Registry, m: map<string, ProductData>, r: Registry, removed: nat, added: nat, updated: nat)
    requires forall a | a in m :: m[a].asin == a
    requires Reconciled(reg, m, r, removed, added, updated)
    ensures Valid(reg) ==> Valid(r)
  {
  }

  /** The reload command. With no product list (the file could not be read)
      nothing changes. Otherwise monitors whose ASIN is no longer listed are
      stopped, monitors for newly listed ASINs are started, and a monitor
      whose listed data changed is stopped and started again. */
  method Reload(reg: Registry, products: Option<seq<ProductData>>)
    returns (r: Registry, removed: nat, added: nat, updated: nat)
    ensures products.None? ==> r == reg && removed == 0 && added == 0 && updated == 0
    ensures products.Some? ==> Reconciled(reg, ByAsin(products.value), r, removed, added, updated)
    ensures Valid(reg) ==> Valid(r)
  {
    if products.None? {
      return reg, 0, 0, 0;
    }
    var m := ByAsin(products.value);
    var current := reg.active.Keys;
    var r1, r2, changed;
    r1, removed := StopAll(reg, current - m.Keys);
    r2, added := StartAll(r1, m, m.Keys - current);
    r, changed := RestartChanged(r2, m, current * m.Keys);
    updated := |changed|;
    FirstTwoPhases(reg, m, r1, r2);
    PhasesReconcile(reg, m, r2, r, removed, added, changed);
    ReconciledIsValid(reg, m, r, removed, added, updated);
  }

  /** Reloading the same products twice: the second reload changes nothing,
      whatever the first one did. */
  lemma ReloadIsIdempotent(reg: Registry, m: map<string, ProductData>,
                           r1: Registry, n1: nat, n2: nat, n3: nat,
                           r2: Registry, k1: nat, k2: nat, k3: nat)
    requires Reconciled(reg, m, r1, n1, n2, n3)
    requires Reconciled(r1, m, r2, k1, k2, k3)
    ensures r2.active == r1.active
    ensures k1 == 0 && k2 == 0 && k3 == 0
  {
    SecondReloadKeepsAll(r1, m, r2, k1, k2, k3);
    SecondReloadCountsNothing(r1, m, r2, k1, k2, k3);
  }

  lemma SecondReloadKeepsAll(r1: Registry, m: map<string, ProductData>, r2: Registry, k1: nat, k2: nat, k3: nat)
    requires r1.active.Keys == m.Keys && forall a | a in r1.active :: r1.active[a].data == m[a]
    requires Reconciled(r1, m, r2, k1, k2, k3)
    ensures r2.active == r1.active
  {
  }

  lemma SecondReloadCountsNothing(r1: Registry, m: map<string, ProductData>, r2: Registry, k1: nat, k2: nat, k3: nat)
    requires r1.active.Keys == m.Keys && forall a | a in r1.active :: r1.active[a].data == m[a]
    requires Reconciled(r1, m, r2, k1, k2, k3)
    ensures k1 == 0 && k2 == 0 && k3 == 0
  {
    assert r1.active.Keys - m.Keys == {};
    assert m.Keys - r1.active.Keys == {};
    assert (set a | a in r1.active && a in m && r1.active[a].data != m[a]) == {};
  }

  // ---------------------------------------------------------------------------
  // What a monitor takes from its product.

  /** The monitor's settings: autocheckout defaults to off, and the accepted
      states are the listed ones lower-cased (an absent or empty list accepts
      every state). */
  function ConfigOf(p: ProductData): (c: Engine.Config)
    ensures c.name == p.name && c.asin == p.asin && c.cutPrice == p.cutPrice
    ensures c.autocheckout <==> p.autocheckout == Some(true)
    ensures p.objectState.None? ==> c.filter == []
    ensures p.objectState.Some? ==>
      |c.filter| == |p.objectState.value| &&
      forall i | 0 <= i < |c.filter| :: c.filter[i] == Lower(p.objectState.value[i])
  {
    var states := match p.objectState case Some(os) => os case None => [];
    var filter := if |states| > 0 then seq(|states|, i requires 0 <= i < |states| => Lower(states[i])) else [];
    Engine.Config(p.name, p.asin, p.cutPrice, p.autocheckout.GetOr(false), filter)
  }

  /** A state passes a monitor's filter exactly when the product lists no
      states, or lists one whose lower-cased form is the state's name. */
  lemma WantedByProduct(p: ProductData, s: Condition)
    ensures Engine.Wanted(ConfigOf(p), s) <==>
      || p.objectState.None?
      || |p.objectState.value| == 0
      || exists i | 0 <= i < |p.objectState.value| :: Lower(p.objectState.value[i]) == s.Name()
  {
    var c := ConfigOf(p);
    if p.objectState.Some? && s.Name() in c.filter {
      var i :| 0 <= i < |c.filter| && c.filter[i] == s.Name();
      assert Lower(p.objectState.value[i]) == s.Name();
    }
  }

  /** The autocheckout answer: "yes" in any letter case means on; anything
      else means off. The answers that turn it on are exactly the three
      letters y, e, s, each in either case. */
  function ParseYes(answer: string): (yes: bool)
    ensures yes <==>
      && |answer| == 3
      && (answer[0] == 'y' || answer[0] == 'Y')
      && (answer[1] == 'e' || answer[1] == 'E')
      && (answer[2] == 's' || answer[2] == 'S')
  {
    LowerIsYes(answer);
    Lower(answer) == "yes"
  }

  lemma LowerIsYes(answer: string)
    ensures Lower(answer) == "yes" <==>
      && |answer| == 3
      && (answer[0] == 'y' || answer[0] == 'Y')
      && (answer[1] == 'e' || answer[1] == 'E')
      && (answer[2] == 's' || answer[2] == 'S')
  {
    if Lower(answer) == "yes" {
      assert Lower(answer)[0] == 'y' && Lower(answer)[1] == 'e' && Lower(answer)[2] == 's';
    } else if |answer| == 3 {
      assert Lower(answer) == [LowerChar(answer[0]), LowerChar(answer[1]), LowerChar(answer[2])];
    }
  }

  // ---------------------------------------------------------------------------
  // The delete command.

  /** One table of the product file: its name (the key) and its ASIN entry,
      when it has one. */
  datatype Listing = Listing(name: string, asin: Option<string>)

  /** The position of the first table whose ASIN entry equals `asin`. */
  function FirstListing(entries: seq<Listing>, asin: string): (r: Option<nat>)
    ensures r.Some? ==> r.value < |entries| && entries[r.value].asin == Some(asin)
    ensures r.Some? ==> forall j | 0 <= j < r.value :: entries[j].asin != Some(asin)
    ensures r.None? <==> forall j | 0 <= j < |entries| :: entries[j].asin != Some(asin)
  {
    if entries == [] then None
    else if entries[0].asin == Some(asin) then Some(0)
    else match FirstListing(entries[1..], asin)
      case None => None
      case Some(j) => Some(j + 1)
  }

  /** The replies of the delete command. */
  datatype Reply = Usage | Deleted(asin: string) | NotListed(asin: string)

  datatype Deletion = Deletion(reg: Registry, entries: seq<Listing>, reply: Reply)

  /** The delete command. Without an argument it only replies with the usage.
      Otherwise it stops the monitor under the given ASIN (if any), then
      removes the first table listing that ASIN from the file. A table whose
      name is empty counts as not found, since an empty name is false in the
      test that follows the search. */
  function Delete(reg: Registry, entries: seq<Listing>, args: seq<string>): (d: Deletion)
    ensures |args| == 0 ==> d == Deletion(reg, entries, Usage)
    ensures |args| > 0 ==> d.reg == Stop(reg, args[0])
    ensures |args| > 0 ==> !d.reply.Usage? && d.reply.asin == args[0]
    ensures |args| > 0 ==> (d.reply == Deleted(args[0]) <==>
      FirstListing(entries, args[0]).Some? && entries[FirstListing(entries, args[0]).value].name != "")
    ensures d.reply.NotListed? ==> d.entries == entries
    ensures d.reply.Deleted? ==>
      && |args| > 0
      && FirstListing(entries, args[0]).Some?
      && var j := FirstListing(entries, args[0]).value;
         d.entries == entries[..j] + entries[j + 1..]
  {
    if |args| == 0 then Deletion(reg, entries, Usage)
    else
      var asin := args[0];
      var r := Stop(reg, asin);
      match FirstListing(entries, asin)
      case Some(j) =>
        if entries[j].name != "" then Deletion(r, entries[..j] + entries[j + 1..], Deleted(asin))
        else Deletion(r, entries, NotListed(asin))
      case None => Deletion(r, entries, NotListed(asin))
  }

  /** Table names are the keys of the product file, so they are distinct. */
  predicate DistinctNames(entries: seq<Listing>) {
    forall i, j | 0 <= i < j < |entries| :: entries[i].name != entries[j].name
  }

  /** Removing the table at position `j` removes its name and keeps every
      other table. */
  lemma RemovalKeepsOthers(entries: seq<Listing>, j: nat)
    requires DistinctNames(entries) && j < |entries|
    ensures var rest := entries[..j] + entries[j + 1..];
      && |rest| == |entries| - 1
      && (forall e | e in rest :: e.name != entries[j].name)
      && (forall e | e in entries && e.name != entries[j].name :: e in rest)
  {
    var rest := entries[..j] + entries[j + 1..];
    forall e | e in rest ensures e.name != entries[j].name {
      var k :| 0 <= k < |rest| && rest[k] == e;
      if k < j { assert e == entries[k]; } else { assert e == entries[k + 1]; }
    }
    forall e | e in entries && e.name != entries[j].name ensures e in rest {
      var k :| 0 <= k < |entries| && entries[k] == e;
      if k < j { assert rest[k] == e; } else { assert rest[k - 1] == e; }
    }
  }

  /** A successful deletion removes exactly the named table: that name is no
      longer in the file, every other table is kept, and the monitor is gone. */
  lemma DeleteRemovesOnlyThatProduct(reg: Registry, entries: seq<Listing>, asin: string)
    requires DistinctNames(entries)
    requires Delete(reg, entries, [asin]).reply.Deleted?
    ensures var d := Delete(reg, entries, [asin]);
      var name := entries[FirstListing(entries, asin).value].name;
      && asin !in d.reg.active
      && (forall e | e in d.entries :: e.name != name)
      && (forall e | e in entries && e.name != name :: e in d.entries)
      && |d.entries| == |entries| - 1
  {
    RemovalKeepsOthers(entries, FirstListing(entries, asin).value);
  }
}

=== FILE: scrape.dfy ===
/** What one visit of the product page yields. The browser is replaced by a
    `Page` value: the facts the monitor looks up on the rendered page, each
    present or absent. */
module Scrape {
  import opened Options
  import opened Text
  import opened Prices
  import opened Conditions
  import opened Locate

  /** The price the monitor uses for "no usable price": the page says the
      product is unavailable, or no price could be read. */
  const NoPrice: real := -1.0

  /** The featured-offer block as found by one of its locators: the texts of
      its whole-price, fraction-price and "used" elements (absent when the
      element is missing) and whether its add-to-cart button can be clicked. */
  datatype MainBlock = MainBlock(
    priceWhole: Option<string>,
    priceFraction: Option<string>,
    usedText: Option<string>,
    cartOk: bool)

  /** One entry of the other-offers list: the text of its condition heading,
      its price fragments, and whether its add-to-cart button can be clicked. */
  datatype OfferBlock = OfferBlock(
    heading: Option<string>,
    priceWhole: Option<string>,
    priceFraction: Option<string>,
    cartOk: bool)

  /** The loaded product page: whether it carries an "unavailable" notice,
      which featured-offer block each locator finds, and the other-offer
      entries in page order. */
  datatype Page = Page(
    unavailable: bool,
    mainAt: string -> Option<MainBlock>,
    offers: seq<OfferBlock>)

  /** The featured-offer locators, tried in this order. */
  const MainOfferLocators: seq<string> := [
    "//div[@id='qualifiedBuybox']",
    "//div[@id='newAccordionRow_0']",
    "//div[@id='newAccordionRow_1']",
    "//div[@data-a-accordion-row-name='newAccordionRow']",
    "//div[contains(@class, 'aod-pinned-offer')]",
    "//div[@id='aod-sticky-pinned-offer']",
    "//div[contains(@class, 'aod-offer-group') and .//input[@name='submit.addToCart']]",
    "//div[@id='desktop_qualifiedBuyBox']"
  ]

  /** The price of a block: a missing whole-price element and text `float()`
      rejects both give no price. */
  function ReadPrice(whole: Option<string>, fraction: Option<string>): Option<real> {
    match whole
    case None => None
    case Some(w) => PriceOf(w, fraction)
  }

  /** The featured offer as the monitor reads it: its price, its condition
      text, the state derived from that text, and the block itself. */
  datatype MainReading = MainReading(
    price: real,
    conditionText: string,
    state: Condition,
    container: Option<MainBlock>)

  /** Reads the featured offer. The defaults (price `NoPrice`, condition
      "N/A", state unknown) survive an unavailable page, a page where no
      locator finds the block, and a block whose price cannot be read. Once a
      price is read the condition is "New" unless a "used" element is found,
      whose stripped text then becomes the condition. */
  function ScrapeMain(page: Page): (r: MainReading)
    ensures page.unavailable ==> r == MainReading(NoPrice, "N/A", Unknown, None)
    ensures !page.unavailable && FindFirst(MainOfferLocators, page.mainAt).None? ==>
      r == MainReading(NoPrice, "N/A", Unknown, None)
    ensures !page.unavailable && FindFirst(MainOfferLocators, page.mainAt).Some? ==>
      var b := FindFirst(MainOfferLocators, page.mainAt).value.element;
      && r.container == Some(b)
      && (ReadPrice(b.priceWhole, b.priceFraction).None? ==> r.price == NoPrice && r.conditionText == "N/A" && r.state == Unknown)
      && (ReadPrice(b.priceWhole, b.priceFraction).Some? ==>
            r.price == ReadPrice(b.priceWhole, b.priceFraction).value && r.state != Unknown)
  {
    if page.unavailable then MainReading(NoPrice, "N/A", Unknown, None)
    else match FindFirst(MainOfferLocators, page.mainAt)
      case None => MainReading(NoPrice, "N/A", Unknown, None)
      case Some(h) =>
        var b := h.element;
        match ReadPrice(b.priceWhole, b.priceFraction)
        case None => MainReading(NoPrice, "N/A", Unknown, Some(b))
        case Some(p) =>
          var c := match b.usedText case Some(t) => Strip(t) case None => "New";
          MainReading(p, c, MainState(c), Some(b))
  }

  /** The first located featured block, showing `whole` grouped with dots
      and the two cent digits `c`, is read as exactly that price; the offer
      is used exactly when the block has a "used" element whose lower-cased
      text mentions "usato" or "used", and new otherwise. */
  lemma ScrapeMainShownPrice(page: Page, whole: nat, c: nat)
    requires c < 100 && !page.unavailable
    requires FindFirst(MainOfferLocators, page.mainAt).Some?
    requires var b := FindFirst(MainOfferLocators, page.mainAt).value.element;
      b.priceWhole == Some(Group(ShowNat(whole))) && b.priceFraction == Some(TwoDigits(c))
    ensures var r, b := ScrapeMain(page), FindFirst(MainOfferLocators, page.mainAt).value.element;
      && r.price == whole as real + c as real / 100.0
      && r.container == Some(b)
      && (r.state == Used <==>
            b.usedText.Some? && (Contains(Lower(b.usedText.value), "usato") || Contains(Lower(b.usedText.value), "used")))
      && (r.state != Used ==> r.state == New)
  {
    PriceRoundTrip(whole, c);
    var b := FindFirst(MainOfferLocators, page.mainAt).value.element;
    if b.usedText.Some? {
      MainStateOfStripped(b.usedText.value);
    } else {
      assert Lower("New") == "new";
      assert !Contains(Lower("New"), "usato") && !Contains(Lower("New"), "used");
    }
  }

  /** Without a "used" element a priced featured offer is new. */
  lemma MainDefaultsToNew(page: Page)
    requires ScrapeMain(page).state != Unknown
    requires FindFirst(MainOfferLocators, page.mainAt).value.element.usedText.None?
    ensures ScrapeMain(page).conditionText == "New" && ScrapeMain(page).state == New
  {
    var c := "New";
    assert Lower(c) == "new";
    assert !Contains(Lower(c), "usato") && !Contains(Lower(c), "used");
  }

  /** One other-offer entry as the monitor reads it: without a heading it is
      skipped; without a readable price it fails; otherwise it has a state
      (from the normalised heading) and a price. */
  datatype OfferReading =
    | NoHeading
    | NoPriceRead(state: Condition)
    | Priced(state: Condition, price: real)

  function ReadOffer(o: OfferBlock): (r: OfferReading)
    ensures r.NoHeading? <==> o.heading.None?
    ensures r.Priced? <==> o.heading.Some? && ReadPrice(o.priceWhole, o.priceFraction).Some?
    ensures r.Priced? ==> ReadPrice(o.priceWhole, o.priceFraction) == Some(r.price)
    ensures !r.NoHeading? ==> r.state == Normalize(Strip(o.heading.value))
  {
    match o.heading
    case None => NoHeading
    case Some(h) =>
      var st := Normalize(Strip(h));
      match ReadPrice(o.priceWhole, o.priceFraction)
      case None => NoPriceRead(st)
      case Some(p) => Priced(st, p)
  }

  /** A headed offer whose price fragments show `whole` grouped with dots
      and the two cent digits `c` is read as exactly that price, in the state
      its stripped heading normalises to. */
  lemma ReadOfferShownPrice(h: string, whole: nat, c: nat, cartOk: bool)
    requires c < 100
    ensures ReadOffer(OfferBlock(Some(h), Some(Group(ShowNat(whole))), Some(TwoDigits(c)), cartOk))
      == Priced(Normalize(Strip(h)), whole as real + c as real / 100.0)
  {
    PriceRoundTrip(whole, c);
  }

  /** No other offer is ever read as like new. */
  lemma ReadOfferNeverLikeNew(o: OfferBlock)
    ensures !ReadOffer(o).NoHeading? ==> ReadOffer(o).state != UsedLikeNew
  {
    if o.heading.Some? {
      NeverLikeNew(Strip(o.heading.value));
    }
  }
}

=== FILE: text.dfy ===
/** The handful of Python string operations the monitor relies on, written out
    over `seq<char>`: `str.isspace`, `str.lower`, the `in` substring test,
    `str.strip`, and the whitespace collapse `" ".join(s.split())`. */
module Text {

  /** Python's `str.isspace()` for one character: the whitespace `split()`
      and `strip()` break on. */
  predicate IsSpace(c: char) {
    || c == ' ' || c == '\t' || c == '\n' || c == '\r' || c == '\U{B}' || c == '\U{C}'
    || ('\U{1C}' <= c <= '\U{1F}')
    || c == '\U{85}' || c == '\U{A0}' || c == '\U{1680}'
    || ('\U{2000}' <= c <= '\U{200A}')
    || c == '\U{2028}' || c == '\U{2029}' || c == '\U{202F}' || c == '\U{205F}' || c == '\U{3000}'
  }

  predicate IsUpper(c: char) {
    'A' <= c <= 'Z'
  }

  /** Lower-casing of one character; only the ASCII letters are mapped. */
  function LowerChar(c: char): char {
    if IsUpper(c) then (c as int + 32) as char else c
  }

  /** `s.lower()`, restricted to ASCII letters. */
  function Lower(s: string): string {
    seq(|s|, i requires 0 <= i < |s| => LowerChar(s[i]))
  }

  /** `k` occurs in `s` starting at position `i`. */
  predicate MatchesAt(s: string, k: string, i: int) {
    0 <= i && i + |k| <= |s| && s[i..i + |k|] == k
  }

  /** Python's `k in s` for strings. */
  predicate Contains(s: string, k: string) {
    exists i | 0 <= i <= |s| - |k| :: MatchesAt(s, k, i)
  }

  /** An occurrence of an occurrence is an occurrence: if `a` is in `s` and
      `b` is in `a`, then `b` is in `s`. */
  lemma ContainsTransitive(s: string, a: string, b: string)
    requires Contains(s, a) && Contains(a, b)
    ensures Contains(s, b)
  {
    var i :| 0 <= i <= |s| - |a| && MatchesAt(s, a, i);
    var j :| 0 <= j <= |a| - |b| && MatchesAt(a, b, j);
    forall t | 0 <= t < |b|
      ensures s[i + j + t] == b[t]
    {
      assert b[t] == a[j..j + |b|][t] == a[j + t];
      assert a[j + t] == s[i..i + |a|][j + t] == s[i + j + t];
    }
    assert s[i + j..i + j + |b|] == b;
    assert MatchesAt(s, b, i + j);
  }

  /** `s` with its leading whitespace removed. */
  function TrimStart(s: string): string {
    if s != [] && IsSpace(s[0]) then TrimStart(s[1..]) else s
  }

  /** `s` with its trailing whitespace removed. */
  function TrimEnd(s: string): string {
    if s != [] && IsSpace(s[|s| - 1]) then TrimEnd(s[..|s| - 1]) else s
  }

  /** Python's `s.strip()`. */
  function Strip(s: string): string {
    TrimEnd(TrimStart(s))
  }

  /** `TrimStart` drops exactly the leading run of whitespace. */
  lemma {:induction false} TrimStartDropsSpace(s: string)
    ensures |TrimStart(s)| <= |s|
    ensures TrimStart(s) == s[|s| - |TrimStart(s)|..]
    ensures TrimStart(s) == [] || !IsSpace(TrimStart(s)[0])
    ensures forall i | 0 <= i < |s| - |TrimStart(s)| :: IsSpace(s[i])
  {
    if s != [] && IsSpace(s[0]) {
      var t, r := s[1..], TrimStart(s);
      TrimStartDropsSpace(t);
      assert r == TrimStart(t);
      assert s[|s| - |r|..] == t[|t| - |r|..];
      forall i | 0 <= i < |s| - |r|
        ensures IsSpace(s[i])
      {
        if i > 0 {
          assert s[i] == t[i - 1];
        }
      }
    }
  }

  /** `TrimEnd` drops exactly the trailing run of whitespace. */
  lemma {:induction false} TrimEndDropsSpace(s: string)
    ensures |TrimEnd(s)| <= |s|
    ensures TrimEnd(s) == s[..|TrimEnd(s)|]
    ensures TrimEnd(s) == [] || !IsSpace(TrimEnd(s)[|TrimEnd(s)| - 1])
    ensures forall i | |TrimEnd(s)| <= i < |s| :: IsSpace(s[i])
  {
    if s != [] && IsSpace(s[|s| - 1]) {
      var t, r := s[..|s| - 1], TrimEnd(s);
      TrimEndDropsSpace(t);
      assert r == TrimEnd(t);
      assert s[..|r|] == t[..|r|];
      forall i | |r| <= i < |s|
        ensures IsSpace(s[i])
      {
        if i < |s| - 1 {
          assert s[i] == t[i];
        }
      }
    }
  }

  /** `strip()` keeps a contiguous middle part of `s` that neither starts nor
      ends with whitespace, and everything it drops is whitespace. */
  lemma StripDropsSpace(s: string)
    ensures var r, a := Strip(s), |s| - |TrimStart(s)|;
      && 0 <= a <= a + |r| <= |s|
      && r == s[a..a + |r|]
      && (r == [] || (!IsSpace(r[0]) && !IsSpace(r[|r| - 1])))
      && (forall i | 0 <= i < a :: IsSpace(s[i]))
      && (forall i | a + |r| <= i < |s| :: IsSpace(s[i]))
  {
    var t := TrimStart(s);
    TrimStartDropsSpace(s);
    TrimEndDropsSpace(t);
    var r := Strip(s);
    var a := |s| - |t|;
    assert r == t[..|r|];
    assert r == s[a..a + |r|];
    forall i | a + |r| <= i < |s|
      ensures IsSpace(s[i])
    {
      assert s[i] == t[i - a];
    }
    if r != [] {
      assert r[0] == t[0];
    }
  }

  /** `strip()` only cuts whitespace, so a keyword free of whitespace occurs
      in the lower-cased stripped text exactly when it occurs in the
      lower-cased text. */
  lemma StripKeepsKeyword(s: string, k: string)
    requires |k| > 0 && forall t | 0 <= t < |k| :: !IsSpace(k[t])
    ensures Contains(Lower(Strip(s)), k) <==> Contains(Lower(s), k)
  {
    StripDropsSpace(s);
    var r, a := Strip(s), |s| - |TrimStart(s)|;
    if Contains(Lower(s), k) {
      var i :| 0 <= i <= |Lower(s)| - |k| && MatchesAt(Lower(s), k, i);
      KeywordInsideStrip(s, k, a, r, i);
    }
    if Contains(Lower(r), k) {
      var j :| 0 <= j <= |Lower(r)| - |k| && MatchesAt(Lower(r), k, j);
      MatchInSlice(s, k, a, r, j);
    }
  }

  /** An occurrence of a keyword free of whitespace lies inside the stripped
      part. */
  lemma KeywordInsideStrip(s: string, k: string, a: int, r: string, i: int)
    requires |k| > 0 && forall t | 0 <= t < |k| :: !IsSpace(k[t])
    requires 0 <= a <= a + |r| <= |s| && r == s[a..a + |r|]
    requires forall t | 0 <= t < a :: IsSpace(s[t])
    requires forall t | a + |r| <= t < |s| :: IsSpace(s[t])
    requires MatchesAt(Lower(s), k, i)
    ensures MatchesAt(Lower(r), k, i - a)
  {
    assert Lower(s)[i] == k[0];
    assert Lower(s)[i + |k| - 1] == k[|k| - 1];
    assert a <= i && i + |k| <= a + |r|;
    forall t | 0 <= t < |k|
      ensures Lower(r)[i - a + t] == k[t]
    {
      assert Lower(s)[i + t] == Lower(s)[i..i + |k|][t];
    }
  }

  /** An occurrence in a slice is an occurrence in the whole. */
  lemma MatchInSlice(s: string, k: string, a: int, r: string, j: int)
    requires 0 <= a <= a + |r| <= |s| && r == s[a..a + |r|]
    requires MatchesAt(Lower(r), k, j)
    ensures MatchesAt(Lower(s), k, a + j)
  {
    forall t | 0 <= t < |k|
      ensures Lower(s)[a + j + t] == k[t]
    {
      assert Lower(r)[j + t] == Lower(r)[j..j + |k|][t];
    }
  }

  /** Text with no whitespace at either end is left alone by `strip()`. */
  lemma NoSpaceTrims(s: string)
    requires |s| > 0 && !IsSpace(s[0]) && !IsSpace(s[|s| - 1])
    ensures Strip(s) == s
  {
    assert TrimStart(s) == s;
    assert TrimEnd(s) == s;
  }

  /** A word as `split()` yields it: non-empty and free of whitespace. */
  predicate IsWord(w: string) {
    |w| > 0 && forall i | 0 <= i < |w| :: !IsSpace(w[i])
  }

  /** The longest whitespace-free prefix of `s`. */
  function TakeWord(s: string): (w: string)
    ensures |w| <= |s|
    ensures w == s[..|w|]
    ensures forall i | 0 <= i < |w| :: !IsSpace(w[i])
    ensures |w| == |s| || IsSpace(s[|w|])
  {
    if s == [] || IsSpace(s[0]) then [] else [s[0]] + TakeWord(s[1..])
  }

  /** Python's `s.split()` with no separator: the maximal whitespace-free runs
      of `s`, in order. */
  function Words(s: string): (ws: seq<string>)
    decreases |s|
  {
    if s == [] then []
    else if IsSpace(s[0]) then Words(s[1..])
    else
      var w := TakeWord(s);
      [w] + Words(s[|w|..])
  }

  /** Every piece `split()` yields is a word. */
  lemma {:induction false} WordsAreWords(s: string)
    ensures forall i | 0 <= i < |Words(s)| :: IsWord(Words(s)[i])
    decreases |s|
  {
    if s != [] {
      if IsSpace(s[0]) {
        WordsAreWords(s[1..]);
      } else {
        var w := TakeWord(s);
        WordsAreWords(s[|w|..]);
        var ws := Words(s);
        assert ws == [w] + Words(s[|w|..]);
        assert forall i | 1 <= i < |ws| :: ws[i] == Words(s[|w|..])[i - 1];
      }
    }
  }

  /** Python's `" ".join(ws)`. */
  function Join(ws: seq<string>): string {
    if ws == [] then []
    else if |ws| == 1 then ws[0]
    else ws[0] + " " + Join(ws[1..])
  }

  /** Every whitespace character of `r` is a single plain space standing
      between two non-whitespace characters. */
  predicate IsCollapsed(r: string) {
    forall i | 0 <= i < |r| && IsSpace(r[i]) ::
      r[i] == ' ' && 0 < i < |r| - 1 && !IsSpace(r[i - 1]) && !IsSpace(r[i + 1])
  }

  /** `" ".join(s.split())`: the words of `s` separated by single spaces. The
      result has the same words as the input and no other whitespace. */
  function Collapse(s: string): (r: string)
    ensures Words(r) == Words(s)
    ensures IsCollapsed(r)
  {
    WordsAreWords(s);
    JoinThenSplit(Words(s));
    JoinIsCollapsed(Words(s));
    Join(Words(s))
  }

  /** Collapsing twice is collapsing once. */
  lemma CollapseIdempotent(s: string)
    ensures Collapse(Collapse(s)) == Collapse(s)
  {
  }

  lemma {:induction false} TakeWordOfWord(w: string, x: string)
    requires IsWord(w)
    requires x == [] || IsSpace(x[0])
    ensures TakeWord(w + x) == w
  {
    assert (w + x)[0] == w[0];
    if |w| == 1 {
      assert (w + x)[1..] == x;
    } else {
      assert (w + x)[1..] == w[1..] + x;
      TakeWordOfWord(w[1..], x);
    }
  }

  /** Splitting a word followed by whitespace (or nothing) yields that word
      first. */
  lemma WordsOfWordThen(w: string, x: string)
    requires IsWord(w)
    requires x == [] || IsSpace(x[0])
    ensures Words(w + x) == [w] + Words(x)
  {
    var j := w + x;
    assert j[0] == w[0];
    TakeWordOfWord(w, x);
    assert j[|w|..] == x;
  }

  lemma WordsSkipsSpace(c: char, s: string)
    requires IsSpace(c)
    ensures Words([c] + s) == Words(s)
  {
    assert ([c] + s)[1..] == s;
  }

  lemma WordsOfWord(w: string)
    requires IsWord(w)
    ensures Words(w) == [w]
  {
    WordsOfWordThen(w, []);
    assert w + [] == w;
  }

  lemma WordsOfWordSpace(w: string, rest: string)
    requires IsWord(w)
    ensures Words(w + " " + rest) == [w] + Words(rest)
  {
    assert w + " " + rest == w + ([' '] + rest);
    WordsOfWordThen(w, [' '] + rest);
    WordsSkipsSpace(' ', rest);
  }

  lemma JoinCons(ws: seq<string>)
    requires |ws| > 1
    ensures Join(ws) == ws[0] + " " + Join(ws[1..])
  {
  }

  lemma SplitJoinedCons(w: string, tail: seq<string>, ws: seq<string>)
    requires |ws| > 1 && ws[0] == w && ws[1..] == tail
    requires IsWord(w)
    requires Words(Join(tail)) == tail
    ensures Words(w + " " + Join(tail)) == ws
  {
    WordsOfWordSpace(w, Join(tail));
    assert [w] + tail == ws;
  }

  lemma WordsOfJoinCons(ws: seq<string>, x: string)
    requires |ws| > 1
    requires x == ws[0] + " " + Join(ws[1..])
    requires Words(x) == ws
    ensures Words(Join(ws)) == ws
  {
    JoinCons(ws);
  }

  /** `split` undoes `join` on well-formed words. */
  lemma {:induction false} JoinThenSplit(ws: seq<string>)
    requires forall i | 0 <= i < |ws| :: IsWord(ws[i])
    ensures Words(Join(ws)) == ws
  {
    if |ws| == 1 {
      assert Join(ws) == ws[0];
      WordsOfWord(ws[0]);
    } else if |ws| > 1 {
      var tail := ws[1..];
      assert forall i | 0 <= i < |tail| :: tail[i] == ws[i + 1];
      JoinThenSplit(tail);
      SplitJoinedCons(ws[0], tail, ws);
      WordsOfJoinCons(ws, ws[0] + " " + Join(tail));
    }
  }

  lemma {:induction false} JoinEnds(ws: seq<string>)
    requires |ws| > 0
    requires forall i | 0 <= i < |ws| :: IsWord(ws[i])
    ensures |Join(ws)| > 0
    ensures !IsSpace(Join(ws)[0]) && !IsSpace(Join(ws)[|Join(ws)| - 1])
  {
    if |ws| > 1 {
      JoinEnds(ws[1..]);
    }
  }

  lemma {:induction false} JoinIsCollapsed(ws: seq<string>)
    requires forall i | 0 <= i < |ws| :: IsWord(ws[i])
    ensures IsCollapsed(Join(ws))
  {
    if |ws| > 1 {
      var w, rest := ws[0], Join(ws[1..]);
      JoinIsCollapsed(ws[1..]);
      JoinEnds(ws[1..]);
      var j := w + " " + rest;
      assert forall i | 0 <= i < |w| :: j[i] == w[i];
      forall i | 0 <= i < |j| && IsSpace(j[i])
        ensures j[i] == ' ' && 0 < i < |j| - 1 && !IsSpace(j[i - 1]) && !IsSpace(j[i + 1])
      {
        if i > |w| {
          assert j[i] == rest[i - |w| - 1];
          assert j[i - 1] == if i - 1 == |w| then ' ' else rest[i - |w| - 2];
          assert j[i + 1] == rest[i - |w|];
        } else if i == |w| {
          assert j[i - 1] == w[|w| - 1];
          assert j[i + 1] == rest[0];
        }
      }
    }
  }
}
